=== FILE: README.md ===
# Drone Meds Express — a Dafny model of the storefront logic

This project models the decision logic of a small React storefront for medicines
delivered by drone. The storefront has a catalogue service, three context providers
(auth, orders, theme) and several page components. Each piece of logic is written as a
pure Dafny function over immutable datatypes. Where the source keeps React state, the
model uses a small record and a transition function that returns the new record. It
also returns the calls the handler made, where it navigated and which toast it showed.

- `Basics`: `Option`, `Reply` (an outside call that resolved or threw) and `Result`.
- `Seqs`: the order-preserving `find`, `filter` and `Array.from(new Set(...))`
  idioms, with their specifications.
- `Text`: ASCII `trim`, `toLowerCase`, `includes` and `split(c)[0]`.
- `Types`: `Medicine`, `CartItem`, `Order`, `Address` and `User`.
- `MedicineService`: the eight-entry catalogue and its queries.
- `OrderContext`: rows of the `orders` table, `parseOrderData`, `createOrder`,
  `fetchOrders` and the user-change effect.
- `CartPage`, `CartItemControls`, `AdminPage`, `OrdersPage`, `TrackingPage`,
  `OrderTracker`, `CategoryBrowse`, `AuthContext`, `ThemeContext` and `UserAdminManager`:
  one module per page, component or provider. `OrderStatus` holds the badge rules that
  the order history and the tracker share. `CategoryBrowse` covers both the Categories
  page and the medicine grid, because their state and filter are the same code.

Modelling choices:

- An order's status is a plain string. `createOrder` stores `"processing"`, which is
  not one of the three values the `Order` type declares (`pending`, `in-transit`,
  `delivered`). Stored orders are never checked against that union. The display rules
  show every status other than `delivered` and `in-transit` as "Processing".
  `Types.DeclaredStatus` names the union, and `Types.ProcessingIsUndeclared` shows the
  written status falls outside it.
- No code changes `deliveryProgress` or `status` after an order is created, so there is
  no progress driver and no status state machine to model. New orders are written with
  status `"processing"`, progress 0 and an ETA drawn from 10..30 minutes.
- `createOrder` does not check for an empty cart. With no items the cart page renders
  its empty view, which has no Place Order button (`CartPage.View`).
- The record shapes follow the type declarations: a cart line is a medicine plus a
  quantity and nothing else, and an address is exactly four strings. The declared
  `number` of a quantity, a progress or an ETA is narrowed to an integer.
- Prices and totals are exact `real`s. `createdAt` is an integer timestamp.
  `Math.random()` is a parameter `random` with `0 <= random < 1`.
- JavaScript truthiness is kept wherever the source relies on it. The empty string
  counts as "no value" for `selectedCategory`, the tracking route's `orderId`, the saved
  user and the id chosen for deletion.
- React runs an effect on mount and afterwards only when one of its dependencies
  changed; the login-modal effects of the orders and tracking pages and the tracking
  redirect take flags saying whether they run. Both effects of one
  render read the same `showLoginModal`. So on mount the tracking page sends a
  signed-out visitor with no order home, even though the login modal is being opened
  in the same pass (`TrackingPage.FirstRenderWithoutOrderGoesHome`).

## Model

| member | source | states |
|---|---|---|
| Types.ProcessingIsUndeclared | src/types/index.ts:20 | The status createOrder writes, "processing", is not one of the three declared statuses |
| MedicineService.CatalogueIdsDistinct | src/services/medicineService.ts:5-70 | No two catalogue entries share an id |
| MedicineService.GetAllMedicines | src/services/medicineService.ts:73-77 | Returns the eight catalogue entries unchanged and in declared order |
| MedicineService.GetMedicineById | src/services/medicineService.ts:80-84 | None exactly when no entry has the id; otherwise an entry of the catalogue with that id |
| MedicineService.GetMedicineByIdUnique | src/services/medicineService.ts:80-84 | Because ids are distinct, the entry found is the one entry carrying that id |
| MedicineService.GetMedicinesByCategory | src/services/medicineService.ts:87-91 | Exactly the entries of that category, each as often as in the catalogue, as an order-preserving subsequence of the catalogue |
| MedicineService.GetAllCategories | src/services/medicineService.ts:94-98 | No duplicates; a category is listed iff some entry has it; listed in order of first occurrence; the concrete five-category list |
| MedicineService.CatalogueCategoryList | src/services/medicineService.ts:97 | The distinct categories of the catalogue are Pain Relief, Allergy, Antibiotics, Digestive Health, Vitamins in that order |
| Seqs.FindFirst | src/services/medicineService.ts:83 | Array.prototype.find: None iff no element matches; otherwise the element at the first matching position |
| Seqs.Filter | src/services/medicineService.ts:90 | Array.prototype.filter: membership iff in the input and matching, multiplicities kept for matches, an order-preserving subsequence |
| Seqs.Distinct | src/services/medicineService.ts:97 | Set-based de-duplication: same elements as the input, no duplicates |
| Seqs.DistinctKeepsFirstOccurrenceOrder | src/services/medicineService.ts:97 | De-duplicated elements appear in the order of their first occurrence in the input |
| Seqs.DistinctBySet | src/services/medicineService.ts:97 | The single pass with a seen-set computes the de-duplication exactly |
| OrderContext.ParseOrderData | src/contexts/OrderContext.tsx:41-64 | Each column goes to its like-named field (user_id to userId, delivery_progress to deliveryProgress) and item order is kept |
| OrderContext.ParseOrderDataRoundTrip | src/contexts/OrderContext.tsx:41-64 | Parsing a row and storing an order are mutually inverse, so no field is lost or swapped |
| OrderContext.ItemRoundTrip | src/contexts/OrderContext.tsx:43-51 | Each stored item maps field by field to a cart line and back |
| OrderContext.TotalAppend | src/contexts/OrderContext.tsx:103-106 | The order total is additive over concatenated item lists (a sum of price times quantity) |
| OrderContext.TotalFromFront | src/contexts/OrderContext.tsx:103-106 | The left-to-right reduce equals first line plus total of the rest |
| OrderContext.Total | src/contexts/OrderContext.tsx:103-106 | The reduce of price times quantity: nothing for no lines, the line total for one line, never negative with non-negative prices and quantities (additivity in TotalAppend, front split in TotalFromFront) |
| OrderContext.TotalExample | src/contexts/OrderContext.tsx:103-106 | Two items at 5.99 plus one at 8.49 total 20.47 |
| OrderContext.Eta | src/contexts/OrderContext.tsx:109 | floor(r*21)+10 lies in 10..30 for every r in [0,1) |
| OrderContext.EtaCoversRange | src/contexts/OrderContext.tsx:109 | Every value 10..30 is reached by some r |
| OrderContext.NewOrder | src/contexts/OrderContext.tsx:114-122 | The inserted columns: the user's id, the items, the address, status "processing", progress 0, the summed total, and the ETA floor(random*21)+10 drawn from the given random value |
| OrderContext.CreateOrder | src/contexts/OrderContext.tsx:91-141 | No user: fails with no state change and no insert; success iff user and insert accepted, and then the order is prepended and made current with the given fields and the drawn ETA; the row sent is exactly NewOrder's; insert failure: orders and current order unchanged, error set, the failure toast shown and the error rethrown |
| OrderContext.CreatedOrderShape | src/contexts/OrderContext.tsx:117-121 | A created order has progress in 0..100 but a status outside the declared union |
| OrderContext.FirstOrderFromInitialState | src/contexts/OrderContext.tsx:34-37 | From the empty initial state the first created order is the only one listed, is current, and no error is recorded |
| OrderContext.FetchOrders | src/contexts/OrderContext.tsx:66-89 | No user: no change; rows replace the list in table order; an error is recorded, the list kept and the fetch toast shown (the only case with a toast); loading ends |
| OrderContext.UserChanged | src/contexts/OrderContext.tsx:144-150 | A null user clears the order list and changes nothing else (current order, error and loading kept) and shows no toast; a user triggers a fetch |
| CartPage.HandlePlaceOrder | src/pages/Cart.tsx:34-58 | Signed out: only the login modal opens; incomplete address: only the address toast; createOrder is called iff signed in with all four fields; once called, the store is exactly createOrder's resulting state and only loading changes on the page; the cart is cleared iff the order was created, then navigation to the tracking page of the inserted id; a failed insert leaves the store's error set and the order toast |
| CartPage.AuthBeforeAddress | src/pages/Cart.tsx:35-44 | Sign-in is checked before the address, so a signed-out visitor never sees the address message |
| CartPage.CheckoutThenTrack | src/pages/Cart.tsx:48-50 | After a successful checkout the tracking page it navigates to resolves the order just created |
| CartPage.FreshCartPage | src/pages/Cart.tsx:24-44 | The page starts with an empty address and not busy: a non-empty cart shows an enabled Place Order button, and pressing it signed in before filling the address only gives the address message |
| CartPage.View | src/pages/Cart.tsx:60-81 | The empty view is shown iff the cart is empty, so Place Order is unreachable then; the button is enabled iff not loading |
| CartItemControls.QuantityChange | src/components/cart/CartItem.tsx:21-24 | Values below 1 are ignored; others are forwarded unchanged with the line's id |
| CartItemControls.Decrease | src/components/cart/CartItem.tsx:53 | Minus requests quantity-1, and does so iff the quantity is at least 2 |
| CartItemControls.Increase | src/components/cart/CartItem.tsx:62 | Plus requests quantity+1 whenever that is at least 1 |
| CartItemControls.DecreaseAtOneIsNoOp | src/components/cart/CartItem.tsx:53 | At quantity 1 the minus button requests nothing |
| CartItemControls.DecreaseUndoesIncrease | src/components/cart/CartItem.tsx:53-62 | Minus after plus asks for the original quantity |
| CartItemControls.Remove | src/components/cart/CartItem.tsx:16-19 | Removal marks the line as removing and removes exactly this line's id |
| AdminPage.CheckAdmin | src/pages/Admin.tsx:90-151 | No user: redirect and no service call; makeUserAdmin is called iff checkIsAdmin answered false; medicines load iff admin status was confirmed or granted, and only then is isAdmin set; any denial or error redirects with nothing loaded; the toast is pinned per branch (verify failure, grant failure, access denied, load failure, none for no user or a successful load); a failed load keeps both lists |
| AdminPage.LoadMedicines | src/pages/Admin.tsx:157-172 | Loaded data replaces both lists; a failure only toasts |
| AdminPage.ListsChangeOnlyForAdmins | src/pages/Admin.tsx:90-172 | The medicine lists change only when a signed-in visitor was admitted and the load returned, and then both equal the loaded data |
| AdminPage.SignedOutAdminStaysLoading | src/pages/Admin.tsx:64-97 | The page opens loading and not admin; a signed-out visitor is sent home before the `try`, so the page stays loading with nothing loaded |
| AdminPage.SearchFilter | src/pages/Admin.tsx:175-188 | A blank term yields all medicines; otherwise exactly those whose lower-cased name, description or category contains the trimmed lower-cased term, each with its multiplicity in the input; always an order-preserving subsequence |
| AdminPage.SearchIgnoresTermCase | src/pages/Admin.tsx:179 | Lower-casing the term first changes nothing |
| AdminPage.SearchIgnoresSurroundingSpace | src/pages/Admin.tsx:179 | Trimming the term first changes nothing |
| AdminPage.SaveCallFor | src/pages/Admin.tsx:218-245 | Update iff editing, keeping the edited medicine's id and taking the other fields from the form; add otherwise |
| AdminPage.SaveIgnoresFormId | src/pages/Admin.tsx:220-227 | The form's own id field never reaches the service |
| AdminPage.OnSubmit | src/pages/Admin.tsx:216-256 | On success the dialog closes and medicines reload; on failure the dialog stays as it was |
| AdminPage.HandleDelete | src/pages/Admin.tsx:259-279 | No call without a chosen id; on success the dialog closes, the id is forgotten and medicines reload; on failure both stay |
| OrderStatus.StatusLabel | src/pages/Orders.tsx:107-111 | Delivered iff delivered, In Transit iff in-transit, Processing for every other status |
| OrderStatus.BadgeVariant | src/pages/Orders.tsx:98-111 | The style follows the badge text: default for Delivered, secondary for In Transit, outline for Processing |
| OrderStatus.LabelDeterminesVariant | src/components/orders/OrderTracker.tsx:45-59 | Badge text and style distinguish exactly the same statuses |
| OrderStatus.ShortId | src/pages/Orders.tsx:92 | The first eight characters of the id, or all of a shorter id |
| OrdersPage.InsertByDate | src/pages/Orders.tsx:80-85 | Inserting into a newest-first list keeps it newest-first and adds exactly one element |
| OrdersPage.SortNewestFirst | src/pages/Orders.tsx:80-85 | The history order is a permutation of the orders, non-increasing by createdAt |
| OrdersPage.SortKeepsSortedInput | src/pages/Orders.tsx:80-85 | An already newest-first list is left as it is |
| OrdersPage.ItemCount | src/pages/Orders.tsx:119 | The reduce of quantities: zero for no lines, the quantity for one line, never negative with non-negative quantities (additivity in ItemCountAppend) |
| OrdersPage.ItemCountAppend | src/pages/Orders.tsx:119 | The item count is the sum of quantities, additive over concatenation |
| OrdersPage.ItemCountAtLeastLines | src/pages/Orders.tsx:119 | With every quantity at least 1 the count is at least the number of lines |
| OrdersPage.ButtonLabel | src/pages/Orders.tsx:143-145 | Track Order iff in-transit, View Details otherwise |
| OrdersPage.Card | src/pages/Orders.tsx:87-151 | Each card shows the status label, the quantity sum and a link to the order's tracking page |
| OrdersPage.Screen | src/pages/Orders.tsx:26-154 | Sign-in view iff signed out; empty view iff signed in with no orders; otherwise one card per order in newest-first order |
| OrdersPage.LoginModalEffect | src/pages/Orders.tsx:20-24 | The effect opens the modal iff it runs (mount or user changed) with nobody signed in; otherwise the modal keeps its state |
| OrdersPage.ClosedModalStaysClosed | src/pages/Orders.tsx:17-24 | A signed-out visitor's closed modal stays closed until the user changes; a change to signed out reopens it |
| OrdersPage.NewOrderCard | src/pages/Orders.tsx:107-145 | A freshly created order is listed as Processing with a View Details button |
| TrackingPage.ResolveOrder | src/pages/Tracking.tsx:22-24 | With an id, the first order with that id; with no match, or no id, the current order |
| TrackingPage.FallbackIgnoresId | src/pages/Tracking.tsx:23 | The fallback is taken even when the current order's id differs from the requested one |
| TrackingPage.RunEffects | src/pages/Tracking.tsx:27-38 | The login effect opens the modal iff it runs (user changed or mount) with no user, otherwise the modal is kept; it goes home iff the redirect effect runs, no order resolved and the modal was not showing |
| TrackingPage.ClosingModalStaysClosed | src/pages/Tracking.tsx:27-38 | Closing the modal while signed out does not reopen it, and sends the visitor home iff no order resolved |
| TrackingPage.FirstRenderWithoutOrderGoesHome | src/pages/Tracking.tsx:27-38 | On mount, a signed-out visit with no order goes home while the modal opens |
| TrackingPage.Body | src/pages/Tracking.tsx:40-59 | The not-found view iff no order resolved |
| OrderTracker.RemainingMinutes | src/components/orders/OrderTracker.tsx:17 | Equals eta at progress 0 and 0 at progress 100 |
| OrderTracker.EtaText | src/components/orders/OrderTracker.tsx:128 | The unit reads "minute" iff the count is 1 |
| OrderTracker.View | src/components/orders/OrderTracker.tsx:20-138 | Same badge as the history; ETA line iff in-transit; delivered message iff delivered; drone moves iff in-transit; drone animated iff not delivered |
| OrderTracker.EtaAndDeliveredExclusive | src/components/orders/OrderTracker.tsx:123-138 | The ETA line and the delivered message never show together |
| OrderTracker.FreshInTransitShowsFullEta | src/components/orders/OrderTracker.tsx:17 | An in-transit order at progress 0 shows its full ETA |
| CategoryBrowse.Loaded | src/pages/Categories.tsx:16-34 | Medicines and categories arrive together or not at all, and loading ends either way |
| CategoryBrowse.StartsWithAllCategories | src/pages/Categories.tsx:13-38 | The initial selection is null, so after loading every medicine is shown |
| CategoryBrowse.Filtered | src/pages/Categories.tsx:36-38 | No selection (or an empty one) shows all medicines unchanged; a selected category shows exactly its medicines, each with its multiplicity in the input, in order |
| CategoryBrowse.BrowseAgreesWithService | src/components/medicines/MedicineGrid.tsx:34-36 | Filtering the loaded catalogue by a category gives the service's category query |
| CategoryBrowse.CategoryBar | src/components/medicines/MedicineGrid.tsx:40-58 | "All" first, then one button per loaded category in order, each highlighted iff it is selected |
| CategoryBrowse.Click | src/components/medicines/MedicineGrid.tsx:41-57 | A click sets the selection its button carries |
| CategoryBrowse.ClickHighlightsOnlyThatButton | src/pages/Categories.tsx:52-70 | With distinct categories, after a click exactly that button is highlighted |
| CategoryBrowse.CatalogueButtonsFilter | src/components/medicines/MedicineGrid.tsx:34-57 | Every catalogue category is a non-empty name, so its button filters, and shows what the service's category query returns |
| CategoryBrowse.CategoriesPageBody | src/pages/Categories.tsx:72-93 | Placeholders iff loading; "No medicines found" iff loaded and the filtered list is empty |
| CategoryBrowse.MedicineGridBody | src/components/medicines/MedicineGrid.tsx:60-75 | Placeholders iff loading, otherwise the filtered medicines |
| AuthContext.Restore | src/contexts/AuthContext.tsx:20-31 | A parsable saved user is taken; anything else leaves the user as it was; loading ends |
| AuthContext.RestoreUnparsableStaysSignedOut | src/contexts/AuthContext.tsx:22-30 | Nothing usable saved leaves the provider signed out and no longer loading |
| AuthContext.EmailUser | src/contexts/AuthContext.tsx:35-39 | Id temp-user-id, the email, and as name the email's prefix before its first '@' |
| AuthContext.EmailUserNameWhole | src/contexts/AuthContext.tsx:38 | The name is the whole email iff it has no '@' |
| AuthContext.SignIn | src/contexts/AuthContext.tsx:33-45 | Signs in the email user and saves the same user |
| AuthContext.SignInIgnoresPassword | src/contexts/AuthContext.tsx:33 | The password has no effect |
| AuthContext.SignInWithGoogle | src/contexts/AuthContext.tsx:47-57 | Always the same fixed mock user, also saved |
| AuthContext.SignOut | src/contexts/AuthContext.tsx:59-63 | The user becomes null and nothing stays saved |
| AuthContext.ReloadRestoresSession | src/contexts/AuthContext.tsx:20-63 | A reload restores the signed-in user, and nobody after a sign-out |
| ThemeContext.ThemeName | src/contexts/ThemeContext.tsx:4 | The stored theme is always "light" or "dark" |
| ThemeContext.InitialTheme | src/contexts/ThemeContext.tsx:14-22 | A saved "light" gives light; a saved "dark", any other value or none gives dark |
| ThemeContext.SavedThemeRestored | src/contexts/ThemeContext.tsx:30 | The saved theme is the one chosen at the next start |
| ThemeContext.Toggle | src/contexts/ThemeContext.tsx:41-43 | Toggling always changes the theme |
| ThemeContext.ToggleTwice | src/contexts/ThemeContext.tsx:42 | Toggling twice is the identity |
| UserAdminManager.HandleSubmit | src/components/admin/UserAdminManager.tsx:14-53 | A blank id is rejected with no call; otherwise the untrimmed id is passed on; success clears the input; refusal or error keeps it; submitting ends |
| UserAdminManager.IdPassedUntrimmed | src/components/admin/UserAdminManager.tsx:17-28 | Any non-blank id that trimming would change is passed on exactly as typed, never in its trimmed form |
| Text.Trim | src/pages/Admin.tsx:176 | Only surrounding whitespace is cut, and the result neither starts nor ends with whitespace |
| Text.TrimEmptyIffBlank | src/components/admin/UserAdminManager.tsx:17 | Trimming leaves nothing iff the text is all whitespace |
| Text.TrimIdempotent | src/pages/Admin.tsx:179 | Trimming twice is trimming once |
| Text.Lower | src/pages/Admin.tsx:182-184 | Lower-casing maps each character to its ASCII lower case |
| Text.LowerIdempotent | src/pages/Admin.tsx:179 | Lower-casing is idempotent and leaves no upper-case ASCII letter |
| Text.LowerThenTrim | src/pages/Admin.tsx:179 | Lower-casing then trimming equals trimming then lower-casing |
| Text.Contains | src/pages/Admin.tsx:182-184 | includes holds iff the term occurs as a contiguous block |
| Text.BeforeFirst | src/contexts/AuthContext.tsx:38 | split('@')[0] is the longest '@'-free prefix, followed by '@' when shorter than the text |

## Left out

- Supabase, `localStorage`, JSON parsing, toasts, routing and JSX rendering are I/O and
  presentation. Their answers are parameters (`Reply`, `InsertReply`, `FetchReply`,
  `SavedUser`). The effects of the modelled handlers, toasts included, are recorded
  as fields of the results (`notice`, `toast`, `navigateTo`, `redirectHome`).
- The cart store's operations (`addToCart`, `updateQuantity`, `removeFromCart`,
  `clearCart`, `totalItems`, `totalPrice`) are opaque calls. The cart controls return the
  call they would make, and checkout records whether it cleared the cart.
- `checkIsAdmin`, `makeUserAdmin`, `addMedicine`, `updateMedicine` and `deleteMedicine`
  are outside services. Their answers are parameters.
- Floating point is left out. Prices are exact reals, so `toFixed` formatting and
  binary rounding of sums are not modelled.
- Quantities, progress and ETAs are integers, although the types declare them as
  `number`: fractional values never arise from the code paths modelled.
- The async handlers (`createOrder`, `fetchOrders`, `checkAdmin`, `loadMedicines`, the admin `onSubmit`
  and `handleDelete`, the user-admin submit) are atomic steps from their start to their
  end. Interleavings with other handlers or renders while a call is pending are not
  modelled.
- OrderTracker.RemainingMinutes: only the endpoints (progress 0 and 100) are stated. The
  browser computes `Math.ceil(eta*(1-p/100))` in binary floating point, which can differ
  from the exact ceiling at intermediate progress.
- Drone x/y coordinates (the sine wave) and the map zoom are left out as floating-point
  animation. Only whether they are updated is modelled.
- `Date` parsing and `toLocaleString` are left out. `createdAt` is an integer timestamp,
  so invalid dates (NaN comparisons in the sort) are not modelled.
- OrdersPage.SortNewestFirst: stability (equal timestamps keep their order) is built
  into the insertion but not stated. The source's in-place `sort` also mutates the
  store's array; the model returns a new sequence instead.
- Unicode case folding and Unicode whitespace are left out; `Text` handles ASCII only.
- The react-hook-form field rules in the admin dialog are left out: the form library
  enforces them. `Number(data.price)` is left out too, since the form's price is
  already a number in the model.
- `setTimeout` delays (the 200 ms before a cart line is removed, the simulated service
  latency) are left out.
- Theme side effects on the DOM and the favicon are left out; only the saved theme
  name is modelled.
- The server-side part of `fetchOrders` is left out: filtering by `user_id` and ordering
  by `created_at` happen in the database query. The rows it returns are a parameter.
- No code advances `deliveryProgress` or `status` after creation, so there is no
  progress driver or status-transition invariant to model.

=== FILE: admin_page.dfy ===
/** The admin page: the access gate run when the page opens, the search
    filter over the loaded medicines, and the add/update and delete handlers.
    The admin and catalogue-editing services are outside the model; their
    answers are parameters. */
module AdminPage {
  import opened Basics
  import opened Types
  import opened Seqs
  import opened Text

  /** The page state touched by the gate and the loader. */
  datatype AdminState = AdminState(
    medicines: seq<Medicine>,
    filtered: seq<Medicine>,
    loading: bool,
    isAdmin: bool)

  const InitialAdminState: AdminState := AdminState([], [], true, false)

  datatype AdminNotice = AccessDenied | GrantFailed | VerifyFailed | LoadFailed

  /** loadMedicines: on success both lists become the loaded medicines; on failure a toast. */
  function LoadMedicines(s: AdminState, reply: Reply<seq<Medicine>>): (r: (AdminState, Option<AdminNotice>))
    ensures reply.Returned? ==> r.0 == s.(medicines := reply.value, filtered := reply.value) && r.1.None?
    ensures reply.Threw? ==> r.0 == s && r.1 == Some(LoadFailed)
  {
    match reply
    case Returned(data) => (s.(medicines := data, filtered := data), None)
    case Threw(_) => (s, Some(LoadFailed))
  }

  /** What the gate did: the new state, which services it called, whether it
      loaded medicines, whether it sent the visitor home, and the toast. */
  datatype Gate = Gate(
    state: AdminState,
    checkCalled: bool,
    makeAdminCalled: bool,
    loadCalled: bool,
    redirectHome: bool,
    notice: Option<AdminNotice>)

  /** The admin status has been established: confirmed, or granted on request. */
  predicate Admitted(isAdminReply: Reply<bool>, makeAdminReply: Reply<bool>)
  {
    isAdminReply == Returned(true) || (isAdminReply == Returned(false) && makeAdminReply == Returned(true))
  }

  /** checkAdmin: without a user go home; otherwise ask whether the user is an
      admin, if not try to make them one, and load the medicines only once
      admin status is established. */
  function CheckAdmin(s: AdminState, user: Option<User>, isAdminReply: Reply<bool>,
                      makeAdminReply: Reply<bool>, loadReply: Reply<seq<Medicine>>): (g: Gate)
    ensures user.None? ==>
      g.state == s && !g.checkCalled && !g.makeAdminCalled && !g.loadCalled && g.redirectHome && g.notice.None?
    ensures user.Some? ==> g.checkCalled && !g.state.loading
    ensures g.makeAdminCalled <==> user.Some? && isAdminReply == Returned(false)
    ensures g.loadCalled <==> user.Some? && Admitted(isAdminReply, makeAdminReply)
    ensures g.loadCalled ==> g.state.isAdmin && !g.redirectHome
    ensures user.Some? && !Admitted(isAdminReply, makeAdminReply) ==>
      && g.redirectHome && g.notice.Some?
      && g.state == s.(loading := false)
    ensures user.Some? && isAdminReply.Threw? ==> g.notice == Some(VerifyFailed)
    ensures user.Some? && isAdminReply == Returned(false) && makeAdminReply.Threw? ==> g.notice == Some(GrantFailed)
    ensures user.Some? && isAdminReply == Returned(false) && makeAdminReply == Returned(false) ==>
      g.notice == Some(AccessDenied)
    ensures g.loadCalled && loadReply.Returned? ==>
      g.state.medicines == loadReply.value && g.state.filtered == loadReply.value && g.notice.None?
    ensures g.loadCalled && loadReply.Threw? ==>
      g.state.medicines == s.medicines && g.state.filtered == s.filtered && g.notice == Some(LoadFailed)
  {
    if user.None? then Gate(s, false, false, false, true, None)
    else
      var busy := s.(loading := true);
      match isAdminReply
      case Threw(_) => Gate(busy.(loading := false), true, false, false, true, Some(VerifyFailed))
      case Returned(true) =>
        var (loaded, notice) := LoadMedicines(busy.(isAdmin := true), loadReply);
        Gate(loaded.(loading := false), true, false, true, false, notice)
      case Returned(false) =>
        match makeAdminReply
        case Threw(_) => Gate(busy.(loading := false), true, true, false, true, Some(GrantFailed))
        case Returned(false) => Gate(busy.(loading := false), true, true, false, true, Some(AccessDenied))
        case Returned(true) =>
          var (loaded, notice) := LoadMedicines(busy.(isAdmin := true), loadReply);
          Gate(loaded.(loading := false), true, true, true, false, notice)
  }

  /** The gate is the only way the lists change: if they differ afterwards,
      a signed-in visitor was admitted and the load returned exactly them. */
  lemma ListsChangeOnlyForAdmins(s: AdminState, user: Option<User>, isAdminReply: Reply<bool>,
                                 makeAdminReply: Reply<bool>, loadReply: Reply<seq<Medicine>>)
    ensures var g := CheckAdmin(s, user, isAdminReply, makeAdminReply, loadReply);
      g.state.medicines != s.medicines || g.state.filtered != s.filtered ==>
        && user.Some? && Admitted(isAdminReply, makeAdminReply) && loadReply.Returned?
        && g.state.isAdmin && g.state.medicines == g.state.filtered == loadReply.value
  {
  }

  /** A medicine matches a lower-cased term when its lower-cased name,
      description or category contains it. */
  predicate Matches(m: Medicine, term: string)
  {
    Contains(Lower(m.name), term) || Contains(Lower(m.description), term) || Contains(Lower(m.category), term)
  }

  /** The search effect: a blank term shows every medicine; otherwise the
      medicines matching the lower-cased, trimmed term, in their order. */
  function SearchFilter(medicines: seq<Medicine>, searchTerm: string): (r: seq<Medicine>)
    ensures IsBlank(searchTerm) ==> r == medicines
    ensures !IsBlank(searchTerm) ==>
      forall m :: m in r <==> m in medicines && Matches(m, Lower(Trim(searchTerm)))
    ensures !IsBlank(searchTerm) ==>
      forall m :: multiset(r)[m] == if Matches(m, Lower(Trim(searchTerm))) then multiset(medicines)[m] else 0
    ensures IsSubsequence(r, medicines)
  {
    TrimEmptyIffBlank(searchTerm);
    LowerThenTrim(searchTerm);
    SubsequenceReflexive(medicines);
    if Trim(searchTerm) == "" then medicines
    else
      var term := Trim(Lower(searchTerm));
      Filter(medicines, (m: Medicine) => Matches(m, term))
  }

  /** The search ignores the case of the term. */
  lemma SearchIgnoresTermCase(medicines: seq<Medicine>, searchTerm: string)
    ensures SearchFilter(medicines, Lower(searchTerm)) == SearchFilter(medicines, searchTerm)
  {
    var lowered := Lower(searchTerm);
    LowerIdempotent(searchTerm);
    LowerThenTrim(searchTerm);
    LowerThenTrim(lowered);
    assert |Trim(lowered)| == |Trim(searchTerm)|;
  }

  /** Surrounding whitespace in the term makes no difference. */
  lemma SearchIgnoresSurroundingSpace(medicines: seq<Medicine>, searchTerm: string)
    ensures SearchFilter(medicines, Trim(searchTerm)) == SearchFilter(medicines, searchTerm)
  {
    TrimIdempotent(searchTerm);
    LowerThenTrim(searchTerm);
    LowerThenTrim(Trim(searchTerm));
  }

  /** The values of the add/edit form; its optional id field is never used. */
  datatype MedicineForm = MedicineForm(
    id: Option<string>,
    name: string,
    description: string,
    price: real,
    imageUrl: string,
    category: string)

  /** The call a submit makes on the catalogue service. */
  datatype SaveCall =
    | UpdateMedicine(medicine: Medicine)
    | AddMedicine(name: string, description: string, price: real, imageUrl: string, category: string)

  /** Update when a medicine is being edited, keeping its id; add otherwise. */
  function SaveCallFor(editing: Option<Medicine>, data: MedicineForm): (c: SaveCall)
    ensures c.UpdateMedicine? <==> editing.Some?
    ensures c.UpdateMedicine? ==> c.medicine == Medicine(editing.value.id, data.name,
      data.description, data.price, data.imageUrl, data.category)
    ensures c.AddMedicine? ==> c == AddMedicine(data.name, data.description, data.price,
      data.imageUrl, data.category)
  {
    if editing.Some? then
      UpdateMedicine(Medicine(editing.value.id, data.name, data.description, data.price,
        data.imageUrl, data.category))
    else AddMedicine(data.name, data.description, data.price, data.imageUrl, data.category)
  }

  /** The id in the form never reaches the service. */
  lemma SaveIgnoresFormId(editing: Option<Medicine>, data: MedicineForm, otherId: Option<string>)
    ensures SaveCallFor(editing, data.(id := otherId)) == SaveCallFor(editing, data)
  {
  }

  datatype SubmitNotice = Saved | SaveFailed

  /** onSubmit: on success close the dialog and reload; on failure keep it open. */
  datatype Submit = Submit(call: SaveCall, dialogOpen: bool, reloadCalled: bool, notice: SubmitNotice)

  function OnSubmit(editing: Option<Medicine>, dialogOpen: bool, data: MedicineForm, reply: Reply<()>): (r: Submit)
    ensures r.call == SaveCallFor(editing, data)
    ensures r.reloadCalled <==> reply.Returned?
    ensures reply.Returned? ==> !r.dialogOpen && r.notice == Saved
    ensures reply.Threw? ==> r.dialogOpen == dialogOpen && r.notice == SaveFailed
  {
    var call := SaveCallFor(editing, data);
    if reply.Returned? then Submit(call, false, true, Saved) else Submit(call, dialogOpen, false, SaveFailed)
  }

  datatype DeleteNotice = Deleted | DeleteFailed

  /** handleDelete: nothing without a chosen id; otherwise delete it, and on
      success close the dialog, forget the id and reload. */
  datatype Delete = Delete(
    call: Option<string>,
    dialogOpen: bool,
    pending: Option<string>,
    reloadCalled: bool,
    notice: Option<DeleteNotice>)

  function HandleDelete(pending: Option<string>, dialogOpen: bool, reply: Reply<()>): (r: Delete)
    ensures r.call.Some? <==> pending.Some? && pending.value != ""
    ensures r.call.Some? ==> r.call == pending
    ensures r.call.None? ==> r == Delete(None, dialogOpen, pending, false, None)
    ensures r.reloadCalled <==> r.call.Some? && reply.Returned?
    ensures r.reloadCalled ==> !r.dialogOpen && r.pending.None? && r.notice == Some(Deleted)
    ensures r.call.Some? && reply.Threw? ==>
      r.dialogOpen == dialogOpen && r.pending == pending && r.notice == Some(DeleteFailed)
  {
    if pending.None? || pending.value == "" then Delete(None, dialogOpen, pending, false, None)
    else if reply.Returned? then Delete(pending, false, None, true, Some(Deleted))
    else Delete(pending, dialogOpen, pending, false, Some(DeleteFailed))
  }

  /** The page opens loading and not admin. A visitor who is not signed in is
      sent home before the gate's `try`, so its `finally` never clears the flag:
      the page stays loading, not admin, with nothing loaded. */
  lemma SignedOutAdminStaysLoading(isAdminReply: Reply<bool>, makeAdminReply: Reply<bool>,
                                   loadReply: Reply<seq<Medicine>>)
    ensures InitialAdminState.loading && !InitialAdminState.isAdmin
    ensures var g := CheckAdmin(InitialAdminState, None, isAdminReply, makeAdminReply, loadReply);
      g.redirectHome && g.state.loading && !g.state.isAdmin && g.state.medicines == []
  {
  }
}

=== FILE: auth_context.dfy ===
/** The mock sign-in provider: a user record kept in state and mirrored in
    local storage under the key "user". */
module AuthContext {
  import opened Basics
  import opened Types
  import opened Text

  datatype AuthState = AuthState(user: Option<User>, isLoading: bool)

  const InitialAuth: AuthState := AuthState(None, true)

  /** What local storage holds under "user": nothing, an empty string, text
      that is not JSON, or JSON that decodes to a user or to null. */
  datatype SavedUser = NothingSaved | EmptyText | Unparsable | Parsed(user: Option<User>)

  /** The mount effect: take a parsable saved user, ignore anything else, and stop loading. */
  function Restore(s: AuthState, saved: SavedUser): (r: AuthState)
    ensures !r.isLoading
    ensures saved.Parsed? ==> r.user == saved.user
    ensures !saved.Parsed? ==> r.user == s.user
  {
    match saved
    case Parsed(u) => AuthState(u, false)
    case _ => s.(isLoading := false)
  }

  /** With nothing usable saved, the provider starts signed out. */
  lemma RestoreUnparsableStaysSignedOut(saved: SavedUser)
    requires !saved.Parsed?
    ensures Restore(InitialAuth, saved) == AuthState(None, false)
  {
  }

  /** A state change together with what is saved afterwards. */
  datatype Step = Step(state: AuthState, saved: SavedUser)

  const TempUserId: string := "temp-user-id"

  /** The user a password sign-in produces: a fixed id, the email, and the part
      of the email before its first '@' as the name. */
  function EmailUser(email: string): (u: User)
    ensures u.id == TempUserId && u.email == email && u.photoURL.None?
    ensures IsPrefix(u.name, email) && '@' !in u.name
    ensures |u.name| < |email| ==> email[|u.name|] == '@'
  {
    User(TempUserId, email, BeforeFirst(email, '@'), None)
  }

  /** The name is the whole email exactly when it has no '@'. */
  lemma EmailUserNameWhole(email: string)
    ensures EmailUser(email).name == email <==> '@' !in email
  {
    BeforeFirstWholeIffAbsent(email, '@');
  }

  function SignIn(s: AuthState, email: string, password: string): (r: Step)
    ensures r.state == s.(user := Some(EmailUser(email)))
    ensures r.saved == Parsed(Some(EmailUser(email)))
  {
    var u := EmailUser(email);
    Step(s.(user := Some(u)), Parsed(Some(u)))
  }

  /** The password plays no part. */
  lemma SignInIgnoresPassword(s: AuthState, email: string, p1: string, p2: string)
    ensures SignIn(s, email, p1) == SignIn(s, email, p2)
  {
  }

  const GoogleUser: User := User("google-user-id", "user@example.com", "Test User",
    Some("https://randomuser.me/api/portraits/lego/1.jpg"))

  function SignInWithGoogle(s: AuthState): (r: Step)
    ensures r.state.user == Some(GoogleUser) && r.saved == Parsed(Some(GoogleUser))
    ensures r.state.isLoading == s.isLoading
  {
    Step(s.(user := Some(GoogleUser)), Parsed(Some(GoogleUser)))
  }

  function SignOut(s: AuthState): (r: Step)
    ensures r.state.user.None? && r.state.isLoading == s.isLoading && r.saved == NothingSaved
  {
    Step(s.(user := None), NothingSaved)
  }

  /** A reload restores whoever was signed in, and nobody after a sign-out. */
  lemma ReloadRestoresSession(s: AuthState, email: string, password: string)
    ensures Restore(InitialAuth, SignIn(s, email, password).saved).user == SignIn(s, email, password).state.user
    ensures Restore(InitialAuth, SignInWithGoogle(s).saved).user == Some(GoogleUser)
    ensures Restore(InitialAuth, SignOut(s).saved).user.None?
  {
  }
}

=== FILE: basics.dfy ===
/** Failure-carrying wrappers shared by every part of the model. */
module Basics {

  /** A value that may be absent: JavaScript's `T | null` or `T | undefined`. */
  datatype Option<+T> = None | Some(value: T)

  /** The settled result of an asynchronous call into code outside the model:
      it either resolved with a value or threw. */
  datatype Reply<+T> = Returned(value: T) | Threw(message: string)

  /** The outcome of an operation of the model that either succeeds or fails with an error. */
  datatype Result<+T, +E> = Success(value: T) | Failure(error: E)
}

=== FILE: cart_item.dfy ===
/** The controls of one cart line. The cart store itself is not part of this
    model: each control yields the call it makes on the store, if any. */
module CartItemControls {
  import opened Basics
  import opened Types

  /** A request to the cart store. */
  datatype CartCall = UpdateQuantity(id: string, quantity: int) | RemoveFromCart(id: string)

  /** handleQuantityChange: quantities below 1 are ignored; anything else is
      forwarded unchanged for this line. */
  function QuantityChange(item: CartItem, value: int): (r: Option<CartCall>)
    ensures r.Some? <==> value >= 1
    ensures r.Some? ==> r.value.UpdateQuantity? && r.value.id == item.Id() && r.value.quantity == value
  {
    if value < 1 then None else Some(UpdateQuantity(item.Id(), value))
  }

  /** The minus button asks for one less. */
  function Decrease(item: CartItem): (r: Option<CartCall>)
    ensures r.Some? <==> item.quantity >= 2
    ensures r.Some? ==> r.value == UpdateQuantity(item.Id(), item.quantity - 1)
  {
    QuantityChange(item, item.quantity - 1)
  }

  /** The plus button asks for one more. */
  function Increase(item: CartItem): (r: Option<CartCall>)
    ensures r.Some? <==> item.quantity >= 0
    ensures r.Some? ==> r.value == UpdateQuantity(item.Id(), item.quantity + 1)
  {
    QuantityChange(item, item.quantity + 1)
  }

  /** At quantity 1 the minus button does nothing. */
  lemma DecreaseAtOneIsNoOp(item: CartItem)
    requires item.quantity == 1
    ensures Decrease(item) == None
  {
  }

  /** Minus undoes plus: after the store applies a plus, minus asks for the old quantity. */
  lemma DecreaseUndoesIncrease(item: CartItem)
    requires item.quantity >= 1
    ensures Increase(item).Some?
    ensures Decrease(item.(quantity := Increase(item).value.quantity))
      == Some(UpdateQuantity(item.Id(), item.quantity))
  {
  }

  /** handleRemove: the line is greyed out and, after a short delay, removed by its id. */
  datatype Removal = Removal(isRemoving: bool, call: CartCall)

  function Remove(item: CartItem): (r: Removal)
    ensures r.isRemoving && r.call.RemoveFromCart? && r.call.id == item.medicine.id
  {
    Removal(true, RemoveFromCart(item.Id()))
  }
}

=== FILE: cart_page.dfy ===
/** The cart page: its view choice and the Place Order handler, which checks
    sign-in, then the address, then asks the order store to create the order. */
module CartPage {
  import opened Basics
  import opened Types
  import opened OrderContext
  import TrackingPage

  /** All four address fields are non-empty. */
  predicate AddressComplete(a: Address)
  {
    a.street != "" && a.city != "" && a.state != "" && a.zipCode != ""
  }

  /** The page's own state: the address form, the login modal and the busy flag. */
  datatype CartPageState = CartPageState(address: Address, showLoginModal: bool, loading: bool)

  const InitialCartPage: CartPageState := CartPageState(Address("", "", "", ""), false, false)

  datatype Notice = FillAllAddressFields | OrderPlaced | OrderFailed

  /** The handler's effects: new page and store states, whether createOrder was
      called, whether the cart was cleared, where the page navigated, and the toast. */
  datatype Outcome = Outcome(
    page: CartPageState,
    store: OrderState,
    createCalled: bool,
    cartCleared: bool,
    navigateTo: Option<string>,
    notice: Option<Notice>)

  function TrackingPath(id: string): string
  {
    "/tracking/" + id
  }

  function HandlePlaceOrder(page: CartPageState, store: OrderState, user: Option<User>,
                            items: seq<CartItem>, random: real, reply: InsertReply): (r: Outcome)
    requires 0.0 <= random < 1.0
    ensures user.None? ==>
      && r.page == page.(showLoginModal := true) && r.store == store
      && !r.createCalled && !r.cartCleared && r.navigateTo.None? && r.notice.None?
    ensures user.Some? && !AddressComplete(page.address) ==>
      && r.page == page && r.store == store && !r.createCalled && !r.cartCleared
      && r.navigateTo.None? && r.notice == Some(FillAllAddressFields)
    ensures r.createCalled <==> user.Some? && AddressComplete(page.address)
    ensures r.cartCleared <==> r.createCalled && reply.Inserted?
    ensures r.createCalled ==>
      && r.page == page.(loading := false)
      && r.store == CreateOrder(store, user, items, page.address, random, reply).state
    ensures r.cartCleared ==>
      && |r.store.orders| == |store.orders| + 1 && r.store.orders[1..] == store.orders
      && r.store.currentOrder == Some(r.store.orders[0])
      && r.store.orders[0].items == items && r.store.orders[0].address == page.address
      && r.store.orders[0].id == reply.id
      && r.navigateTo == Some(TrackingPath(reply.id))
      && r.notice == Some(OrderPlaced)
    ensures r.createCalled && !r.cartCleared ==>
      && r.store.orders == store.orders && r.store.currentOrder == store.currentOrder
      && r.store.error == Some(reply.message) && !r.store.loading
      && r.navigateTo.None? && r.notice == Some(OrderFailed)
  {
    if user.None? then
      Outcome(page.(showLoginModal := true), store, false, false, None, None)
    else if !AddressComplete(page.address) then
      Outcome(page, store, false, false, None, Some(FillAllAddressFields))
    else
      var c := CreateOrder(store, user, items, page.address, random, reply);
      match c.result
      case Success(o) =>
        Outcome(page.(loading := false), c.state, true, true, Some(TrackingPath(o.id)), Some(OrderPlaced))
      case Failure(_) =>
        Outcome(page.(loading := false), c.state, true, false, None, Some(OrderFailed))
  }

  /** Sign-in is checked before the address: a signed-out visitor with an
      incomplete address sees the login modal, not the address message. */
  lemma AuthBeforeAddress(page: CartPageState, store: OrderState, items: seq<CartItem>,
                          random: real, reply: InsertReply)
    requires 0.0 <= random < 1.0 && !AddressComplete(page.address)
    ensures var r := HandlePlaceOrder(page, store, None, items, random, reply);
      r.page.showLoginModal && r.notice.None?
  {
  }

  /** After a successful checkout the tracking page it navigates to shows the
      order just created. */
  lemma CheckoutThenTrack(page: CartPageState, store: OrderState, user: Option<User>,
                          items: seq<CartItem>, random: real, reply: InsertReply)
    requires 0.0 <= random < 1.0 && reply.Inserted? && reply.id != ""
    requires HandlePlaceOrder(page, store, user, items, random, reply).cartCleared
    ensures var r := HandlePlaceOrder(page, store, user, items, random, reply);
      TrackingPage.ResolveOrder(Some(reply.id), r.store.orders, r.store.currentOrder)
        == Some(r.store.orders[0])
  {
    var r := HandlePlaceOrder(page, store, user, items, random, reply);
    var o := r.store.orders[0];
    assert o.id == reply.id;
    assert TrackingPage.HasOrderWithId(r.store.orders, reply.id);
  }

  /** Which view the page renders. */
  datatype Screen = EmptyCart | Checkout(placeOrderEnabled: bool, buttonText: string)

  function View(items: seq<CartItem>, page: CartPageState): (v: Screen)
    ensures v.EmptyCart? <==> |items| == 0
    ensures v.Checkout? ==> (v.placeOrderEnabled <==> !page.loading)
    ensures v.Checkout? ==> (v.buttonText == "Place Order" <==> v.placeOrderEnabled)
  {
    if |items| == 0 then EmptyCart
    else Checkout(!page.loading, if page.loading then "Processing..." else "Place Order")
  }

  /** The page starts with an empty address, no modal and not busy: a cart with
      items first shows an enabled Place Order button, and a signed-in visitor who
      presses it before filling in the address only gets the address message. */
  lemma FreshCartPage(store: OrderState, user: Option<User>, items: seq<CartItem>,
                      random: real, reply: InsertReply)
    requires 0.0 <= random < 1.0 && |items| > 0 && user.Some?
    ensures View(items, InitialCartPage) == Checkout(true, "Place Order")
    ensures var r := HandlePlaceOrder(InitialCartPage, store, user, items, random, reply);
      !r.createCalled && r.notice == Some(FillAllAddressFields)
  {
  }
}

=== FILE: category_browse.dfy ===
/** Browsing by category, as both the Categories page and the home-page
    medicine grid do it: load medicines and categories together, pick a
    category (or none for all), and show the medicines of that category. */
module CategoryBrowse {
  import opened Basics
  import opened Types
  import opened Seqs
  import MedicineService

  /** The state both components keep. */
  datatype BrowseState = BrowseState(
    medicines: seq<Medicine>,
    categories: seq<string>,
    selected: Option<string>,
    isLoading: bool)

  /** Nothing loaded, no category selected, loading. */
  const InitialBrowse: BrowseState := BrowseState([], [], None, true)

  /** The data effect: both lists arrive together, or neither does; loading ends either way. */
  function Loaded(s: BrowseState, reply: Reply<(seq<Medicine>, seq<string>)>): (r: BrowseState)
    ensures !r.isLoading && r.selected == s.selected
    ensures reply.Returned? ==> r.medicines == reply.value.0 && r.categories == reply.value.1
    ensures reply.Threw? ==> r.medicines == s.medicines && r.categories == s.categories
  {
    match reply
    case Returned((ms, cs)) => s.(medicines := ms, categories := cs, isLoading := false)
    case Threw(_) => s.(isLoading := false)
  }

  /** Before any click nothing is selected, so once the data has arrived every
      loaded medicine is shown, in order. */
  lemma StartsWithAllCategories(reply: Reply<(seq<Medicine>, seq<string>)>)
    requires reply.Returned?
    ensures InitialBrowse.selected.None?
    ensures var s := Loaded(InitialBrowse, reply); Filtered(s.medicines, s.selected) == reply.value.0
  {
  }

  /** A selection filters only when it is a non-empty category name (JavaScript truthiness). */
  predicate Filtering(selected: Option<string>)
  {
    selected.Some? && selected.value != ""
  }

  /** The medicines shown for a selection. */
  function Filtered(medicines: seq<Medicine>, selected: Option<string>): (r: seq<Medicine>)
    ensures !Filtering(selected) ==> r == medicines
    ensures Filtering(selected) ==> forall m :: m in r <==> m in medicines && m.category == selected.value
    ensures Filtering(selected) ==>
      forall m :: multiset(r)[m] == if m.category == selected.value then multiset(medicines)[m] else 0
    ensures IsSubsequence(r, medicines)
  {
    SubsequenceReflexive(medicines);
    if Filtering(selected) then
      var c := selected.value;
      Filter(medicines, (m: Medicine) => MedicineService.InCategory(m, c))
    else medicines
  }

  /** Selecting a catalogue category after loading from the catalogue service
      shows what the service's category query returns. */
  lemma BrowseAgreesWithService(s: BrowseState, c: string)
    requires s.medicines == MedicineService.Catalogue && c != ""
    ensures Filtered(s.medicines, Some(c)) == MedicineService.GetMedicinesByCategory(c)
  {
  }

  /** One button of the category bar: its text, the selection it sets, and
      whether it is highlighted. */
  datatype CategoryButton = CategoryButton(text: string, selects: Option<string>, active: bool)

  /** "All" first, then one button per loaded category, in order. */
  function CategoryBar(categories: seq<string>, selected: Option<string>): (r: seq<CategoryButton>)
    ensures |r| == |categories| + 1
    ensures r[0] == CategoryButton("All", None, selected.None?)
    ensures forall i :: 0 <= i < |categories| ==>
      r[i + 1].text == categories[i] && r[i + 1].selects == Some(categories[i]) &&
      (r[i + 1].active <==> selected == Some(categories[i]))
  {
    [CategoryButton("All", None, selected.None?)] +
      seq(|categories|, i requires 0 <= i < |categories| =>
        CategoryButton(categories[i], Some(categories[i]), selected == Some(categories[i])))
  }

  /** Clicking a button sets the selection it carries. */
  function Click(s: BrowseState, b: CategoryButton): (r: BrowseState)
    ensures r.selected == b.selects && r.medicines == s.medicines && r.categories == s.categories
  {
    s.(selected := b.selects)
  }

  /** After clicking a button of the bar, that button and no other is highlighted,
      provided the categories are distinct. */
  lemma ClickHighlightsOnlyThatButton(s: BrowseState, k: int)
    requires NoDuplicates(s.categories) && 0 <= k <= |s.categories|
    ensures var bar := CategoryBar(s.categories, s.selected);
      var after := CategoryBar(s.categories, Click(s, bar[k]).selected);
      forall i :: 0 <= i < |after| ==> (after[i].active <==> i == k)
  {
  }

  /** The body of the Categories page: placeholders while loading, then the
      cards, or a message when the selection has no medicines. */
  datatype CategoriesBody = Placeholders | Cards(medicines: seq<Medicine>) | NoneFound

  function CategoriesPageBody(s: BrowseState): (b: CategoriesBody)
    ensures b.Placeholders? <==> s.isLoading
    ensures b.NoneFound? <==> !s.isLoading && |Filtered(s.medicines, s.selected)| == 0
    ensures b.Cards? ==> b.medicines == Filtered(s.medicines, s.selected) && |b.medicines| > 0
  {
    if s.isLoading then Placeholders
    else
      var shown := Filtered(s.medicines, s.selected);
      if |shown| > 0 then Cards(shown) else NoneFound
  }

  /** The body of the medicine grid: the same, but an empty selection shows no message. */
  datatype GridBody = GridPlaceholders | GridCards(medicines: seq<Medicine>)

  function MedicineGridBody(s: BrowseState): (b: GridBody)
    ensures b.GridPlaceholders? <==> s.isLoading
    ensures b.GridCards? ==> b.medicines == Filtered(s.medicines, s.selected)
  {
    if s.isLoading then GridPlaceholders else GridCards(Filtered(s.medicines, s.selected))
  }

  /** Every category the catalogue yields is a non-empty name, so each of its
      buttons filters, and what it shows is the service's category query. */
  lemma CatalogueButtonsFilter(c: string)
    requires c in MedicineService.CategoriesOf(MedicineService.Catalogue)
    ensures Filtering(Some(c))
    ensures Filtered(MedicineService.Catalogue, Some(c)) == MedicineService.GetMedicinesByCategory(c)
  {
    MedicineService.CatalogueCategoriesNonEmpty();
    var cats := MedicineService.CategoriesOf(MedicineService.Catalogue);
    var k :| 0 <= k < |cats| && cats[k] == c;
    assert MedicineService.Catalogue[k].category == c;
    BrowseAgreesWithService(BrowseState(MedicineService.Catalogue, [], None, false), c);
  }
}

=== FILE: medicine_service.dfy ===
/** The catalogue service: a fixed list of medicines and the queries over it. */
module MedicineService {
  import opened Basics
  import opened Types
  import opened Seqs

  /** The mock catalogue, in declared order. */
  const Catalogue: seq<Medicine> := [
    Medicine("1", "Paracetamol", "Pain reliever and fever reducer", 5.99,
      "/medicines/paracetamol.jpg", "Pain Relief"),
    Medicine("2", "Ibuprofen", "Anti-inflammatory pain relief", 6.99,
      "/medicines/ibuprofen.jpg", "Pain Relief"),
    Medicine("3", "Cetirizine", "Antihistamine for allergy relief", 8.49,
      "/medicines/cetirizine.jpg", "Allergy"),
    Medicine("4", "Amoxicillin", "Antibiotic for bacterial infections", 12.99,
      "/medicines/amoxicillin.jpg", "Antibiotics"),
    Medicine("5", "Omeprazole", "Reduces stomach acid production", 9.99,
      "/medicines/omeprazole.jpg", "Digestive Health"),
    Medicine("6", "Loratadine", "Non-drowsy allergy relief", 7.49,
      "/medicines/loratadine.jpg", "Allergy"),
    Medicine("7", "Aspirin", "Pain reliever, anti-inflammatory", 4.99,
      "/medicines/aspirin.jpg", "Pain Relief"),
    Medicine("8", "Vitamin D3", "Supports bone and immune health", 11.99,
      "/medicines/vitamind.jpg", "Vitamins")
  ]

  /** No two catalogue entries share an id. */
  lemma CatalogueIdsDistinct()
    ensures forall i, j :: 0 <= i < j < |Catalogue| ==> Catalogue[i].id != Catalogue[j].id
  {
  }

  /** Every catalogue entry has a non-empty category (so selecting one is truthy). */
  lemma CatalogueCategoriesNonEmpty()
    ensures forall i :: 0 <= i < |Catalogue| ==> Catalogue[i].category != ""
  {
  }

  /** The whole catalogue, unchanged and in declared order. */
  function GetAllMedicines(): (r: seq<Medicine>)
    ensures |r| == 8
    ensures forall i :: 0 <= i < |r| ==> r[i].id == Catalogue[i].id
    ensures r == Catalogue
  {
    Catalogue
  }

  /** The first catalogue entry with the given id, or None. */
  function GetMedicineById(id: string): (r: Option<Medicine>)
    ensures r.None? <==> forall i :: 0 <= i < |Catalogue| ==> Catalogue[i].id != id
    ensures r.Some? ==> r.value in Catalogue && r.value.id == id
  {
    FindFirst(Catalogue, (m: Medicine) => m.id == id)
  }

  /** Ids are distinct, so the entry found by id is the only entry with that id. */
  lemma GetMedicineByIdUnique(id: string, i: int)
    requires 0 <= i < |Catalogue| && Catalogue[i].id == id
    ensures GetMedicineById(id) == Some(Catalogue[i])
  {
    var r := GetMedicineById(id);
    var k :| 0 <= k < |Catalogue| && Catalogue[k] == r.value;
    CatalogueIdsDistinct();
    assert k == i;
  }

  /** `m` belongs to `category`. */
  predicate InCategory(m: Medicine, category: string)
  {
    m.category == category
  }

  /** Exactly the catalogue entries whose category equals the argument, in catalogue order. */
  function GetMedicinesByCategory(category: string): (r: seq<Medicine>)
    ensures forall m :: m in r <==> m in Catalogue && m.category == category
    ensures forall m :: multiset(r)[m] == if m.category == category then multiset(Catalogue)[m] else 0
    ensures IsSubsequence(r, Catalogue)
  {
    Filter(Catalogue, (m: Medicine) => InCategory(m, category))
  }

  /** The category of each entry, in order (the `map` before the Set). */
  function CategoriesOf(ms: seq<Medicine>): (r: seq<string>)
    ensures |r| == |ms|
    ensures forall i :: 0 <= i < |ms| ==> r[i] == ms[i].category
  {
    seq(|ms|, i requires 0 <= i < |ms| => ms[i].category)
  }

  /** The distinct categories of the catalogue in order of first occurrence,
      computed the way `Array.from(new Set(...))` does. */
  method GetAllCategories() returns (r: seq<string>)
    ensures NoDuplicates(r)
    ensures forall c :: c in r <==> c in CategoriesOf(Catalogue)
    ensures forall c :: c in r <==> exists m :: m in Catalogue && m.category == c
    ensures forall i, j :: 0 <= i < j < |r| ==>
      FirstIndex(CategoriesOf(Catalogue), r[i]) < FirstIndex(CategoriesOf(Catalogue), r[j])
    ensures r == ["Pain Relief", "Allergy", "Antibiotics", "Digestive Health", "Vitamins"]
  {
    var cats := CategoriesOf(Catalogue);
    r := DistinctBySet(cats);
    CatalogueCategoryList();
    DistinctKeepsFirstOccurrenceOrder(cats);
    forall c | c in r ensures exists m :: m in Catalogue && m.category == c {
      var k := FirstIndex(cats, c);
      assert Catalogue[k] in Catalogue;
    }
    forall c | exists m :: m in Catalogue && m.category == c ensures c in r {
      var m :| m in Catalogue && m.category == c;
      var k :| 0 <= k < |Catalogue| && Catalogue[k] == m;
      assert cats[k] == c;
    }
  }

  /** The category column of the catalogue, entry by entry. */
  lemma CatalogueCategoryColumn()
    ensures CategoriesOf(Catalogue) == ["Pain Relief", "Pain Relief", "Allergy", "Antibiotics",
      "Digestive Health", "Allergy", "Pain Relief", "Vitamins"]
  {
  }

  /** Distinct on the first five entries of the catalogue's category column. */
  lemma DistinctOfColumnHead<T(!new)>(a: T, b: T, c: T, d: T)
    requires a != b && a != c && a != d && b != c && b != d && c != d
    ensures Distinct([a, a, b, c, d]) == [a, b, c, d]
  {
    assert Distinct([a]) == [a] by {
      DistinctSnocNew([], a);
      assert [] + [a] == [a];
    }
    assert Distinct([a, a]) == [a] by {
      DistinctSnocSeen([a], a);
      assert [a] + [a] == [a, a];
    }
    assert Distinct([a, a, b]) == [a, b] by {
      DistinctSnocNew([a, a], b);
      assert [a, a] + [b] == [a, a, b];
    }
    assert Distinct([a, a, b, c]) == [a, b, c] by {
      DistinctSnocNew([a, a, b], c);
      assert [a, a, b] + [c] == [a, a, b, c];
    }
    DistinctSnocNew([a, a, b, c], d);
    assert [a, a, b, c] + [d] == [a, a, b, c, d];
  }

  /** Distinct on the shape of the catalogue's whole category column. */
  lemma DistinctOfColumnShape<T(!new)>(a: T, b: T, c: T, d: T, e: T)
    requires a != b && a != c && a != d && a != e && b != c && b != d && b != e
    requires c != d && c != e && d != e
    ensures Distinct([a, a, b, c, d, b, a, e]) == [a, b, c, d, e]
  {
    assert Distinct([a, a, b, c, d]) == [a, b, c, d] by {
      DistinctOfColumnHead(a, b, c, d);
    }
    assert Distinct([a, a, b, c, d, b]) == [a, b, c, d] by {
      DistinctSnocSeen([a, a, b, c, d], b);
      assert [a, a, b, c, d] + [b] == [a, a, b, c, d, b];
    }
    assert Distinct([a, a, b, c, d, b, a]) == [a, b, c, d] by {
      DistinctSnocSeen([a, a, b, c, d, b], a);
      assert [a, a, b, c, d, b] + [a] == [a, a, b, c, d, b, a];
    }
    DistinctSnocNew([a, a, b, c, d, b, a], e);
    assert [a, a, b, c, d, b, a] + [e] == [a, a, b, c, d, b, a, e];
  }

  /** The five categories of the catalogue, in the order the category bar shows them. */
  lemma CatalogueCategoryList()
    ensures Distinct(CategoriesOf(Catalogue)) ==
      ["Pain Relief", "Allergy", "Antibiotics", "Digestive Health", "Vitamins"]
  {
    CatalogueCategoryColumn();
    var pr, al, ab, dh, vi := "Pain Relief", "Allergy", "Antibiotics", "Digestive Health", "Vitamins";
    assert pr[0] == 'P' && ab[1] == 'n';
    DistinctOfColumnShape(pr, al, ab, dh, vi);
  }
}

=== FILE: order_context.dfy ===
/** The order store: the rows of the `orders` table, how they are read back into
    orders, and the provider's state transitions (create, fetch, user change). */
module OrderContext {
  import opened Basics
  import opened Types

  /** A cart line as it is kept in the `items` JSON column: the medicine's
      fields and the quantity side by side. */
  datatype StoredItem = StoredItem(
    id: string,
    name: string,
    description: string,
    price: real,
    imageUrl: string,
    category: string,
    quantity: int)

  /** A row of the `orders` table, fields named after its columns. */
  datatype OrderRow = OrderRow(
    id: string,
    user_id: string,
    items: seq<StoredItem>,
    status: string,
    total: real,
    created_at: int,
    address: Address,
    delivery_progress: int,
    eta: int)

  /** The columns an insert supplies; the table adds `id` and `created_at`. */
  datatype NewOrderRow = NewOrderRow(
    user_id: string,
    items: seq<StoredItem>,
    status: string,
    total: real,
    address: Address,
    delivery_progress: int,
    eta: int)

  /** A cart line as the JSON column receives it. */
  function StoreItem(c: CartItem): StoredItem
  {
    StoredItem(c.medicine.id, c.medicine.name, c.medicine.description, c.medicine.price,
      c.medicine.imageUrl, c.medicine.category, c.quantity)
  }

  /** A stored line read back, field by field, into a cart line. */
  function ParseItem(s: StoredItem): CartItem
  {
    CartItem(Medicine(s.id, s.name, s.description, s.price, s.imageUrl, s.category), s.quantity)
  }

  /** Storing and parsing a line are mutually inverse. */
  lemma ItemRoundTrip(c: CartItem, s: StoredItem)
    ensures ParseItem(StoreItem(c)) == c
    ensures StoreItem(ParseItem(s)) == s
  {
  }

  function StoreItems(items: seq<CartItem>): (r: seq<StoredItem>)
    ensures |r| == |items|
    ensures forall i :: 0 <= i < |items| ==> r[i] == StoreItem(items[i])
  {
    seq(|items|, i requires 0 <= i < |items| => StoreItem(items[i]))
  }

  function ParseItems(rows: seq<StoredItem>): (r: seq<CartItem>)
    ensures |r| == |rows|
    ensures forall i :: 0 <= i < |rows| ==> r[i] == ParseItem(rows[i])
  {
    seq(|rows|, i requires 0 <= i < |rows| => ParseItem(rows[i]))
  }

  /** The order a row describes: every column goes to its like-named field
      (`user_id` to `userId`, `delivery_progress` to `deliveryProgress`,
      `created_at` to `createdAt`) and the items keep their order. */
  function ParseOrderData(row: OrderRow): (o: Order)
    ensures o.id == row.id && o.userId == row.user_id && o.status == row.status
    ensures o.total == row.total && o.createdAt == row.created_at && o.address == row.address
    ensures o.deliveryProgress == row.delivery_progress && o.eta == row.eta
    ensures |o.items| == |row.items|
    ensures forall i :: 0 <= i < |row.items| ==> StoreItem(o.items[i]) == row.items[i]
  {
    Order(row.id, row.user_id, ParseItems(row.items), row.total, row.status, row.created_at,
      row.address, row.eta, row.delivery_progress)
  }

  /** The row an order would be stored as. */
  function OrderToRow(o: Order): OrderRow
  {
    OrderRow(o.id, o.userId, StoreItems(o.items), o.status, o.total, o.createdAt, o.address,
      o.deliveryProgress, o.eta)
  }

  /** Reading a row loses nothing: parsing is a bijection between rows and orders. */
  lemma ParseOrderDataRoundTrip(o: Order, row: OrderRow)
    ensures ParseOrderData(OrderToRow(o)) == o
    ensures OrderToRow(ParseOrderData(row)) == row
  {
    assert ParseItems(StoreItems(o.items)) == o.items;
    assert StoreItems(ParseItems(row.items)) == row.items;
  }

  /** What one cart line costs. */
  function LineTotal(c: CartItem): real
  {
    c.medicine.price * c.quantity as real
  }

  /** No line has a negative price or quantity. */
  predicate NonNegativeLines(items: seq<CartItem>)
  {
    forall i :: 0 <= i < |items| ==> items[i].medicine.price >= 0.0 && items[i].quantity >= 0
  }

  /** Sum of price times quantity, accumulated from the first line to the last
      as `reduce` does. A single line costs its own line total, and with
      non-negative prices and quantities the total is never negative. */
  function Total(items: seq<CartItem>): (t: real)
    ensures |items| == 0 ==> t == 0.0
    ensures |items| == 1 ==> t == LineTotal(items[0])
    ensures NonNegativeLines(items) ==> t >= 0.0
  {
    if |items| == 0 then 0.0 else Total(items[..|items| - 1]) + LineTotal(items[|items| - 1])
  }

  /** The total of a concatenation is the sum of the totals. */
  lemma {:induction false} TotalAppend(a: seq<CartItem>, b: seq<CartItem>)
    ensures Total(a + b) == Total(a) + Total(b)
    decreases |b|
  {
    if |b| == 0 {
      assert a + b == a;
    } else {
      assert (a + b)[..|a + b| - 1] == a + b[..|b| - 1];
      TotalAppend(a, b[..|b| - 1]);
    }
  }

  /** The total is the sum of the line totals taken in either direction. */
  lemma {:induction false} TotalFromFront(items: seq<CartItem>)
    requires |items| > 0
    ensures Total(items) == LineTotal(items[0]) + Total(items[1..])
  {
    TotalAppend([items[0]], items[1..]);
    assert [items[0]] + items[1..] == items;
    assert Total([items[0]]) == Total([]) + LineTotal(items[0]);
  }

  /** Two Paracetamol at 5.99 and one Cetirizine at 8.49 come to 20.47. */
  lemma TotalExample(p: Medicine, c: Medicine)
    requires p.price == 5.99 && c.price == 8.49
    ensures Total([CartItem(p, 2), CartItem(c, 1)]) == 20.47
  {
    var items := [CartItem(p, 2), CartItem(c, 1)];
    assert items[..1] == [CartItem(p, 2)] && items[..1][..0] == [];
    assert Total(items[..1]) == 5.99 * 2.0;
  }

  /** `Math.floor(random * 21) + 10` for a draw `random` in [0, 1). */
  function Eta(random: real): (eta: int)
    requires 0.0 <= random < 1.0
    ensures 10 <= eta <= 30
  {
    (random * 21.0).Floor + 10
  }

  /** Every minute count from 10 to 30 is drawn for some random value. */
  lemma EtaCoversRange(minutes: int)
    requires 10 <= minutes <= 30
    ensures 0.0 <= (minutes - 10) as real / 21.0 < 1.0
    ensures Eta((minutes - 10) as real / 21.0) == minutes
  {
    assert ((minutes - 10) as real / 21.0) * 21.0 == (minutes - 10) as real;
  }

  /** The provider's state. */
  datatype OrderState = OrderState(
    orders: seq<Order>,
    loading: bool,
    error: Option<string>,
    currentOrder: Option<Order>)

  const InitialOrderState: OrderState := OrderState([], false, None, None)

  /** What the table answers to an insert followed by `.select().single()`. */
  datatype InsertReply = Inserted(id: string, created_at: int) | InsertError(message: string)

  /** Why creating an order failed. */
  datatype OrderError = NotSignedIn | SaveFailed(message: string)

  /** The error toasts the provider shows. */
  datatype OrderToast = FetchFailed | CreateFailed

  /** The new state, what createOrder resolved or threw, the row it sent, if
      any, and the toast it showed. */
  datatype CreateResult = CreateResult(
    state: OrderState,
    result: Result<Order, OrderError>,
    insert: Option<NewOrderRow>,
    toast: Option<OrderToast>)

  /** The columns createOrder sends for a signed-in user. */
  function NewOrder(user: User, items: seq<CartItem>, address: Address, random: real): (r: NewOrderRow)
    requires 0.0 <= random < 1.0
    ensures r.user_id == user.id && r.address == address && ParseItems(r.items) == items
    ensures r.status == ProcessingStatus && r.delivery_progress == 0
    ensures r.total == Total(items) && r.eta == Eta(random)
  {
    assert ParseItems(StoreItems(items)) == items;
    NewOrderRow(user.id, StoreItems(items), ProcessingStatus, Total(items), address, 0, Eta(random))
  }

  /** The row the table returns for an insert it accepted. */
  function InsertedRow(r: NewOrderRow, id: string, createdAt: int): OrderRow
  {
    OrderRow(id, r.user_id, r.items, r.status, r.total, createdAt, r.address, r.delivery_progress, r.eta)
  }

  /** createOrder: refuse without a user; otherwise send the new row, and on
      success put the created order in front of the list and make it current,
      on failure record the error and leave the orders alone. */
  function CreateOrder(s: OrderState, user: Option<User>, items: seq<CartItem>, address: Address,
                       random: real, reply: InsertReply): (c: CreateResult)
    requires 0.0 <= random < 1.0
    ensures user.None? ==> c.state == s && c.result == Failure(NotSignedIn) && c.insert.None?
    ensures c.insert == if user.Some? then Some(NewOrder(user.value, items, address, random)) else None
    ensures user.Some? ==> c.insert.Some? && c.insert.value.user_id == user.value.id
    ensures c.insert.Some? ==>
      && c.insert.value.status == ProcessingStatus
      && c.insert.value.delivery_progress == 0 && ParseItems(c.insert.value.items) == items
      && c.insert.value.address == address && c.insert.value.total == Total(items)
    ensures c.result.Success? <==> user.Some? && reply.Inserted?
    ensures c.result.Success? ==>
      var o := c.result.value;
      && o.id == reply.id && o.userId == user.value.id && o.items == items && o.address == address
      && o.total == Total(items) && o.status == ProcessingStatus && o.deliveryProgress == 0
      && o.eta == Eta(random) && o.createdAt == reply.created_at
      && c.state == s.(orders := [o] + s.orders, currentOrder := Some(o), loading := false)
    ensures user.Some? && reply.InsertError? ==>
      && c.result == Failure(SaveFailed(reply.message))
      && c.state == s.(error := Some(reply.message), loading := false)
    ensures c.toast.Some? <==> user.Some? && reply.InsertError?
    ensures c.toast.Some? ==> c.toast == Some(CreateFailed)
  {
    if user.None? then CreateResult(s, Failure(NotSignedIn), None, None)
    else
      var request := NewOrder(user.value, items, address, random);
      match reply
      case Inserted(id, createdAt) =>
        var o := ParseOrderData(InsertedRow(request, id, createdAt));
        assert o.items == ParseItems(request.items);
        CreateResult(s.(orders := [o] + s.orders, currentOrder := Some(o), loading := false),
          Success(o), Some(request), None)
      case InsertError(message) =>
        CreateResult(s.(error := Some(message), loading := false),
          Failure(SaveFailed(message)), Some(request), Some(CreateFailed))
  }

  /** A newly created order has a documented progress and an ETA in the drawn range,
      but a status outside the three the Order type declares. */
  lemma CreatedOrderShape(s: OrderState, user: Option<User>, items: seq<CartItem>, address: Address,
                          random: real, reply: InsertReply)
    requires 0.0 <= random < 1.0
    requires CreateOrder(s, user, items, address, random, reply).result.Success?
    ensures var o := CreateOrder(s, user, items, address, random, reply).result.value;
      DocumentedProgress(o.deliveryProgress) && !DeclaredStatus(o.status)
  {
  }

  /** What the select for the user's orders answers: rows, no data, or an error. */
  datatype FetchReply = Rows(rows: seq<OrderRow>) | NoData | FetchError(message: string)

  /** The provider's state after a fetch, and the toast it showed. */
  datatype FetchResult = FetchResult(state: OrderState, toast: Option<OrderToast>)

  /** fetchOrders: nothing without a user; otherwise replace the list by the
      parsed rows in the order the table returned them, or record the error
      and show the fetch toast. */
  function FetchOrders(s: OrderState, user: Option<User>, reply: FetchReply): (r: FetchResult)
    ensures user.None? ==> r.state == s
    ensures user.Some? ==> !r.state.loading && r.state.currentOrder == s.currentOrder
    ensures user.Some? && reply.Rows? ==>
      |r.state.orders| == |reply.rows| &&
      forall i :: 0 <= i < |reply.rows| ==> OrderToRow(r.state.orders[i]) == reply.rows[i]
    ensures user.Some? && !reply.Rows? ==> r.state.orders == s.orders
    ensures user.Some? && reply.FetchError? ==> r.state.error == Some(reply.message)
    ensures !reply.FetchError? ==> r.state.error == s.error
    ensures r.toast.Some? <==> user.Some? && reply.FetchError?
    ensures r.toast.Some? ==> r.toast == Some(FetchFailed)
  {
    if user.None? then FetchResult(s, None)
    else
      match reply
      case Rows(rows) =>
        var parsed := seq(|rows|, i requires 0 <= i < |rows| => ParseOrderData(rows[i]));
        assert forall i :: 0 <= i < |rows| ==> OrderToRow(parsed[i]) == rows[i] by {
          forall i | 0 <= i < |rows| ensures OrderToRow(parsed[i]) == rows[i] {
            ParseOrderDataRoundTrip(parsed[i], rows[i]);
          }
        }
        FetchResult(s.(orders := parsed, loading := false), None)
      case NoData => FetchResult(s.(loading := false), None)
      case FetchError(message) => FetchResult(s.(error := Some(message), loading := false), Some(FetchFailed))
  }

  /** The effect run when the signed-in user changes: fetch for a user, clear
      the list when there is none. The current order is not cleared, and
      clearing shows no toast. */
  function UserChanged(s: OrderState, user: Option<User>, reply: FetchReply): (r: FetchResult)
    ensures user.None? ==> r == FetchResult(s.(orders := []), None)
    ensures user.Some? ==> r == FetchOrders(s, user, reply)
  {
    if user.Some? then FetchOrders(s, user, reply) else FetchResult(s.(orders := []), None)
  }

  /** From the provider's empty state, the first order created is the only one
      listed, it is current, and no error is recorded. */
  lemma FirstOrderFromInitialState(user: User, items: seq<CartItem>, address: Address,
                                   random: real, reply: InsertReply)
    requires 0.0 <= random < 1.0 && reply.Inserted?
    ensures var c := CreateOrder(InitialOrderState, Some(user), items, address, random, reply);
      && c.result.Success?
      && c.state.orders == [c.result.value] && c.state.currentOrder == Some(c.result.value)
      && c.state.error.None? && !c.state.loading
  {
  }
}

=== FILE: order_status.dfy ===
/** How an order's status text is shown. The order history and the tracker
    both render the same badge: only "delivered" and "in-transit" are
    recognised, and every other text, "processing" included, reads as Processing. */
module OrderStatus {
  import opened Types

  /** The badge text. */
  function StatusLabel(status: string): (text: string)
    ensures text == "Delivered" <==> status == DeliveredStatus
    ensures text == "In Transit" <==> status == InTransitStatus
    ensures text == "Processing" <==> status != DeliveredStatus && status != InTransitStatus
  {
    if status == DeliveredStatus then "Delivered"
    else if status == InTransitStatus then "In Transit"
    else "Processing"
  }

  /** The badge style, which follows the badge text: solid for Delivered,
      secondary for In Transit, outlined for Processing. */
  function BadgeVariant(status: string): (variant: string)
    ensures StatusLabel(status) == "Delivered" ==> variant == "default"
    ensures StatusLabel(status) == "In Transit" ==> variant == "secondary"
    ensures StatusLabel(status) == "Processing" ==> variant == "outline"
  {
    if status == DeliveredStatus then "default"
    else if status == InTransitStatus then "secondary"
    else "outline"
  }

  /** Label and style pick out the same three cases. */
  lemma LabelDeterminesVariant(s1: string, s2: string)
    ensures StatusLabel(s1) == StatusLabel(s2) <==> BadgeVariant(s1) == BadgeVariant(s2)
  {
  }

  /** The first eight characters of an order id (`substring(0, 8)`): the whole id when shorter. */
  function ShortId(id: string): (r: string)
    ensures |r| == if |id| < 8 then |id| else 8
    ensures r == id[..|r|]
  {
    if |id| <= 8 then id else id[..8]
  }

  /** The order heading shared by both views. */
  function Heading(o: Order): string
  {
    "Order #" + ShortId(o.id)
  }
}

=== FILE: order_tracker.dfy ===
/** The delivery tracker card: badge, remaining time, and the in-transit and
    delivered messages. Drone coordinates and map zoom are not modelled; only
    whether they are updated is. */
module OrderTracker {
  import opened Basics
  import opened Types
  import opened OrderStatus

  /** Math.ceil over exact reals: the least integer not below `x`. */
  function Ceil(x: real): (n: int)
    ensures n as real >= x && (n - 1) as real < x
  {
    -((-x).Floor)
  }

  /** `Math.ceil(eta * (1 - progress / 100))`, in exact arithmetic. */
  function RemainingMinutes(eta: int, progress: int): (r: int)
    ensures progress == 0 ==> r == eta
    ensures progress == 100 ==> r == 0
  {
    Ceil(eta as real * (1.0 - progress as real / 100.0))
  }

  /** "Estimated arrival in n minute(s)". */
  datatype EtaLine = EtaLine(minutes: int, unit: string)

  function EtaText(minutes: int): (e: EtaLine)
    ensures e.minutes == minutes
    ensures e.unit == "minute" <==> minutes == 1
    ensures e.unit == "minutes" <==> minutes != 1
  {
    EtaLine(minutes, if minutes == 1 then "minute" else "minutes")
  }

  /** What the card shows for an order. */
  datatype TrackerView = TrackerView(
    heading: string,
    badge: string,
    badgeVariant: string,
    progressPercent: int,
    eta: Option<EtaLine>,
    deliveredMessage: bool,
    droneAnimated: bool,
    droneMoves: bool)

  function View(o: Order): (v: TrackerView)
    ensures v.badge == StatusLabel(o.status) && v.badgeVariant == BadgeVariant(o.status)
    ensures v.eta.Some? <==> o.status == InTransitStatus
    ensures v.eta.Some? ==> v.eta.value == EtaText(RemainingMinutes(o.eta, o.deliveryProgress))
    ensures v.deliveredMessage <==> o.status == DeliveredStatus
    ensures v.droneAnimated <==> o.status != DeliveredStatus
    ensures v.droneMoves <==> o.status == InTransitStatus
    ensures v.progressPercent == o.deliveryProgress
  {
    var inTransit := o.status == InTransitStatus;
    TrackerView(Heading(o), StatusLabel(o.status), BadgeVariant(o.status), o.deliveryProgress,
      if inTransit then Some(EtaText(RemainingMinutes(o.eta, o.deliveryProgress))) else None,
      o.status == DeliveredStatus, o.status != DeliveredStatus, inTransit)
  }

  /** The ETA line and the delivered message are never shown together. */
  lemma EtaAndDeliveredExclusive(o: Order)
    ensures !(View(o).eta.Some? && View(o).deliveredMessage)
  {
  }

  /** An order still at progress 0 that is in transit shows its full ETA. */
  lemma FreshInTransitShowsFullEta(o: Order)
    requires o.status == InTransitStatus && o.deliveryProgress == 0
    ensures View(o).eta == Some(EtaText(o.eta))
  {
  }
}

=== FILE: orders_page.dfy ===
/** The order history page: orders newest first, one card each, or a sign-in prompt. */
module OrdersPage {
  import opened Basics
  import opened Types
  import opened OrderStatus
  import OrderContext

  /** Non-increasing by creation time. */
  predicate NewestFirst(os: seq<Order>)
  {
    forall i, j :: 0 <= i < j < |os| ==> os[i].createdAt >= os[j].createdAt
  }

  /** Put `o` in front of the first order not newer than it. Placing it before
      orders of equal time keeps the sort stable, as Array.prototype.sort is. */
  function InsertByDate(o: Order, os: seq<Order>): (r: seq<Order>)
    requires NewestFirst(os)
    ensures NewestFirst(r)
    ensures multiset(r) == multiset(os) + multiset{o}
    ensures |r| == |os| + 1 && (r[0] == o || (|os| > 0 && r[0] == os[0]))
  {
    if |os| == 0 || o.createdAt >= os[0].createdAt then
      PrependNewest(o, os);
      [o] + os
    else
      var rest := InsertByDate(o, os[1..]);
      assert os == [os[0]] + os[1..];
      PrependNewest(os[0], rest);
      [os[0]] + rest
  }

  /** An order at least as new as the head of a newest-first list can go in front of it. */
  lemma PrependNewest(o: Order, os: seq<Order>)
    requires NewestFirst(os) && (|os| == 0 || o.createdAt >= os[0].createdAt)
    ensures NewestFirst([o] + os)
  {
    var r := [o] + os;
    forall i, j | 0 <= i < j < |r| ensures r[i].createdAt >= r[j].createdAt {
      if i == 0 {
        assert r[j] == os[j - 1];
      } else {
        assert r[i] == os[i - 1] && r[j] == os[j - 1];
      }
    }
  }

  /** The history ordering: newest first, the same orders with the same multiplicities. */
  function SortNewestFirst(os: seq<Order>): (r: seq<Order>)
    ensures NewestFirst(r)
    ensures multiset(r) == multiset(os)
    ensures |r| == |os|
  {
    if |os| == 0 then []
    else
      assert os == [os[0]] + os[1..];
      InsertByDate(os[0], SortNewestFirst(os[1..]))
  }

  /** Sorting an already newest-first list changes nothing. */
  lemma {:induction false} SortKeepsSortedInput(os: seq<Order>)
    requires NewestFirst(os)
    ensures SortNewestFirst(os) == os
  {
    if |os| > 0 {
      SortKeepsSortedInput(os[1..]);
      assert os == [os[0]] + os[1..];
    }
  }

  /** Total quantity over the lines of an order (the "Items (n)" heading): no
      lines count nothing, one line counts its quantity, and non-negative
      quantities never give a negative count. */
  function ItemCount(items: seq<CartItem>): (n: int)
    ensures |items| == 0 ==> n == 0
    ensures |items| == 1 ==> n == items[0].quantity
    ensures (forall i :: 0 <= i < |items| ==> items[i].quantity >= 0) ==> n >= 0
  {
    if |items| == 0 then 0 else items[0].quantity + ItemCount(items[1..])
  }

  /** Counting a concatenation is adding the counts. */
  lemma {:induction false} ItemCountAppend(a: seq<CartItem>, b: seq<CartItem>)
    ensures ItemCount(a + b) == ItemCount(a) + ItemCount(b)
  {
    if |a| > 0 {
      assert (a + b)[1..] == a[1..] + b;
      ItemCountAppend(a[1..], b);
    } else {
      assert a + b == b;
    }
  }

  /** When every line holds at least one unit, there are at least as many units as lines. */
  lemma {:induction false} ItemCountAtLeastLines(items: seq<CartItem>)
    requires forall i :: 0 <= i < |items| ==> items[i].quantity >= 1
    ensures ItemCount(items) >= |items|
  {
    if |items| > 0 {
      ItemCountAtLeastLines(items[1..]);
    }
  }

  /** The card's button: tracking is offered only for orders in transit. */
  function ButtonLabel(status: string): (text: string)
    ensures text == "Track Order" <==> status == InTransitStatus
    ensures text == "View Details" <==> status != InTransitStatus
  {
    if status == InTransitStatus then "Track Order" else "View Details"
  }

  /** One history card. */
  datatype HistoryCard = HistoryCard(
    heading: string,
    badge: string,
    badgeVariant: string,
    itemCount: int,
    total: real,
    buttonLabel: string,
    link: string)

  function Card(o: Order): (c: HistoryCard)
    ensures c.badge == StatusLabel(o.status) && c.buttonLabel == ButtonLabel(o.status)
    ensures c.itemCount == ItemCount(o.items) && c.link == "/tracking/" + o.id
  {
    HistoryCard(Heading(o), StatusLabel(o.status), BadgeVariant(o.status), ItemCount(o.items),
      o.total, ButtonLabel(o.status), "/tracking/" + o.id)
  }

  /** What the page shows. */
  datatype OrdersScreen = SignInRequired | NoOrders | History(cards: seq<HistoryCard>)

  function Screen(user: Option<User>, orders: seq<Order>): (r: OrdersScreen)
    ensures r.SignInRequired? <==> user.None?
    ensures r.NoOrders? <==> user.Some? && |orders| == 0
    ensures r.History? ==> |r.cards| == |orders|
    ensures r.History? ==> forall i :: 0 <= i < |orders| ==> r.cards[i] == Card(SortNewestFirst(orders)[i])
  {
    if user.None? then SignInRequired
    else if |orders| == 0 then NoOrders
    else
      var sorted := SortNewestFirst(orders);
      History(seq(|sorted|, i requires 0 <= i < |sorted| => Card(sorted[i])))
  }

  /** The login effect, which React runs on mount and afterwards only when
      `user` changed: run with nobody signed in it opens the modal, otherwise
      the modal keeps its state. */
  function LoginModalEffect(user: Option<User>, showLoginModal: bool, userChanged: bool): (r: bool)
    ensures userChanged && user.None? ==> r
    ensures !(userChanged && user.None?) ==> r == showLoginModal
  {
    if userChanged && user.None? then true else showLoginModal
  }

  /** A signed-out visitor who closes the modal keeps it closed until the
      user changes; signing out again reopens it. */
  lemma ClosedModalStaysClosed(showLoginModal: bool)
    ensures !LoginModalEffect(None, false, false)
    ensures LoginModalEffect(None, showLoginModal, true)
  {
  }

  /** A freshly created order is listed as Processing with a View Details button. */
  lemma NewOrderCard(s: OrderContext.OrderState, user: Option<User>, items: seq<CartItem>,
                     address: Address, random: real, reply: OrderContext.InsertReply)
    requires 0.0 <= random < 1.0
    requires OrderContext.CreateOrder(s, user, items, address, random, reply).result.Success?
    ensures var o := OrderContext.CreateOrder(s, user, items, address, random, reply).result.value;
      Card(o).badge == "Processing" && Card(o).buttonLabel == "View Details"
  {
  }
}

=== FILE: seqs.dfy ===
/** Order-preserving sequence queries: the Array.prototype.find, filter and
    `Array.from(new Set(...))` idioms the storefront relies on. */
module Seqs {
  import opened Basics

  /** The index of the first element at or after `k` that satisfies `p`. */
  function FindIndexFrom<T>(s: seq<T>, p: T -> bool, k: nat): (r: Option<nat>)
    requires k <= |s|
    ensures r.Some? ==> k <= r.value < |s| && p(s[r.value])
    ensures r.Some? ==> forall j :: k <= j < r.value ==> !p(s[j])
    ensures r.None? <==> forall j :: k <= j < |s| ==> !p(s[j])
    decreases |s| - k
  {
    if k == |s| then None
    else if p(s[k]) then Some(k)
    else FindIndexFrom(s, p, k + 1)
  }

  /** The first element of `s` satisfying `p`, or None (Array.prototype.find). */
  function FindFirst<T>(s: seq<T>, p: T -> bool): (r: Option<T>)
    ensures r.None? <==> forall j :: 0 <= j < |s| ==> !p(s[j])
    ensures r.Some? ==> exists i :: 0 <= i < |s| && s[i] == r.value && p(s[i]) && IsFirstMatch(s, p, i)
  {
    match FindIndexFrom(s, p, 0)
    case None => None
    case Some(i) => assert IsFirstMatch(s, p, i); Some(s[i])
  }

  /** `i` is the position of the first element of `s` satisfying `p`. */
  ghost predicate IsFirstMatch<T>(s: seq<T>, p: T -> bool, i: nat)
  {
    i < |s| && p(s[i]) && forall j :: 0 <= j < i ==> !p(s[j])
  }

  /** `a` is obtained from `b` by deleting elements, keeping the order of the rest. */
  predicate IsSubsequence<T(==)>(a: seq<T>, b: seq<T>)
    decreases |b|
  {
    |a| == 0 ||
    (|b| > 0 && ((a[0] == b[0] && IsSubsequence(a[1..], b[1..])) || IsSubsequence(a, b[1..])))
  }

  /** Every sequence is a subsequence of itself. */
  lemma {:induction false} SubsequenceReflexive<T>(s: seq<T>)
    ensures IsSubsequence(s, s)
  {
    if |s| > 0 {
      SubsequenceReflexive(s[1..]);
    }
  }

  /** The elements of `s` satisfying `p`, in their original order (Array.prototype.filter). */
  function Filter<T(==,!new)>(s: seq<T>, p: T -> bool): (r: seq<T>)
    ensures |r| <= |s|
    ensures forall x :: x in r <==> x in s && p(x)
    ensures forall x :: multiset(r)[x] == if p(x) then multiset(s)[x] else 0
    ensures IsSubsequence(r, s)
  {
    if |s| == 0 then []
    else
      assert s == [s[0]] + s[1..];
      if p(s[0]) then [s[0]] + Filter(s[1..], p) else Filter(s[1..], p)
  }

  /** No element occurs twice. */
  predicate NoDuplicates<T(==)>(s: seq<T>)
  {
    forall i, j :: 0 <= i < j < |s| ==> s[i] != s[j]
  }

  /** The position of the first occurrence of `x` in `s`. */
  function FirstIndex<T(==)>(s: seq<T>, x: T): (r: nat)
    requires x in s
    ensures r < |s| && s[r] == x
    ensures forall j :: 0 <= j < r ==> s[j] != x
  {
    if s[0] == x then 0 else 1 + FirstIndex(s[1..], x)
  }

  /** The distinct elements of `s` in order of first occurrence, as produced by
      inserting every element of `s` into a JavaScript Set and listing the Set. */
  function Distinct<T(==,!new)>(s: seq<T>): (r: seq<T>)
    ensures forall x :: x in r <==> x in s
    ensures NoDuplicates(r)
  {
    if |s| == 0 then []
    else
      var d := Distinct(s[..|s| - 1]);
      assert s == s[..|s| - 1] + [s[|s| - 1]];
      if s[|s| - 1] in d then d else d + [s[|s| - 1]]
  }

  /** One step of Distinct: a value is appended only on its first occurrence. */
  lemma DistinctSnoc<T(!new)>(s: seq<T>, x: T)
    ensures Distinct(s + [x]) == if x in Distinct(s) then Distinct(s) else Distinct(s) + [x]
  {
    assert (s + [x])[..|s|] == s;
  }

  /** Appending a value already present leaves the distinct elements unchanged. */
  lemma DistinctSnocSeen<T(!new)>(s: seq<T>, x: T)
    requires x in s
    ensures Distinct(s + [x]) == Distinct(s)
  {
    DistinctSnoc(s, x);
  }

  /** Appending a new value appends it to the distinct elements. */
  lemma DistinctSnocNew<T(!new)>(s: seq<T>, x: T)
    requires x !in s
    ensures Distinct(s + [x]) == Distinct(s) + [x]
  {
    DistinctSnoc(s, x);
  }

  /** A position holding `x` with no `x` before it is the first index of `x`. */
  lemma FirstIndexUnique<T>(s: seq<T>, x: T, k: nat)
    requires k < |s| && s[k] == x && forall j :: 0 <= j < k ==> s[j] != x
    ensures FirstIndex(s, x) == k
  {
    var f := FirstIndex(s, x);
    assert !(f < k) && !(k < f);
  }

  /** Adding an element that is not yet seen does not move the first occurrence
      of anything already in the prefix. */
  lemma FirstIndexOfPrefix<T>(s: seq<T>, n: nat, x: T)
    requires n <= |s| && x in s[..n]
    ensures FirstIndex(s, x) == FirstIndex(s[..n], x)
  {
    var k := FirstIndex(s[..n], x);
    assert forall j :: 0 <= j < k ==> s[j] == s[..n][j];
    FirstIndexUnique(s, x, k);
  }

  /** Distinct lists elements in the order in which they first occur in `s`. */
  lemma {:induction false} DistinctKeepsFirstOccurrenceOrder<T(!new)>(s: seq<T>)
    ensures forall i, j :: 0 <= i < j < |Distinct(s)| ==>
      FirstIndex(s, Distinct(s)[i]) < FirstIndex(s, Distinct(s)[j])
  {
    if |s| > 0 {
      var pre := s[..|s| - 1];
      var last := s[|s| - 1];
      var d := Distinct(pre);
      DistinctKeepsFirstOccurrenceOrder(pre);
      var r := Distinct(s);
      forall i, j | 0 <= i < j < |r|
        ensures FirstIndex(s, r[i]) < FirstIndex(s, r[j])
      {
        assert r[i] == d[i];
        FirstIndexOfPrefix(s, |s| - 1, r[i]);
        if j < |d| {
          assert r[j] == d[j];
          FirstIndexOfPrefix(s, |s| - 1, r[j]);
        } else {
          assert r[j] == last && last !in pre;
          assert FirstIndex(s, r[j]) == |s| - 1;
        }
      }
    }
  }

  /** The `Array.from(new Set(s))` loop: walk `s` once, keeping a set of the
      values already seen, and append each value the first time it appears. */
  method DistinctBySet<T(==,!new)>(s: seq<T>) returns (r: seq<T>)
    ensures r == Distinct(s)
  {
    r := [];
    var seen: set<T> := {};
    var i := 0;
    while i < |s|
      invariant 0 <= i <= |s|
      invariant r == Distinct(s[..i])
      invariant seen == set x | x in r
    {
      assert s[..i + 1][..i] == s[..i];
      if s[i] !in seen {
        r := r + [s[i]];
        seen := seen + {s[i]};
      }
      i := i + 1;
    }
    assert s[..i] == s;
  }
}

=== FILE: text.dfy ===
/** ASCII renderings of the JavaScript string operations the pages use:
    `trim`, `toLowerCase`, `includes` and `split(c)[0]`. */
module Text {

  /** ASCII whitespace as String.prototype.trim sees it: space, tab, line feed,
      vertical tab, form feed and carriage return. */
  predicate IsSpace(c: char)
  {
    c == ' ' || ('\t' <= c <= '\r')
  }

  /** Every character is whitespace; the empty string is blank. */
  predicate IsBlank(s: string)
  {
    forall i :: 0 <= i < |s| ==> IsSpace(s[i])
  }

  /** `p` is a prefix of `s`. */
  predicate IsPrefix(p: string, s: string)
  {
    |p| <= |s| && s[..|p|] == p
  }

  /** The number of whitespace characters `s` starts with, counted from position `k`. */
  function LeadingSpaceFrom(s: string, k: nat): (n: nat)
    requires k <= |s|
    requires forall i :: 0 <= i < k ==> IsSpace(s[i])
    ensures k <= n <= |s|
    ensures forall i :: 0 <= i < n ==> IsSpace(s[i])
    ensures n < |s| ==> !IsSpace(s[n])
    decreases |s| - k
  {
    if k < |s| && IsSpace(s[k]) then LeadingSpaceFrom(s, k + 1) else k
  }

  /** Where the leading whitespace of `s` ends. */
  function LeadingSpace(s: string): (n: nat)
    ensures n <= |s|
    ensures forall i :: 0 <= i < n ==> IsSpace(s[i])
    ensures n < |s| ==> !IsSpace(s[n])
  {
    LeadingSpaceFrom(s, 0)
  }

  /** Where the trailing whitespace of `s[..k]` begins. */
  function TrailingSpaceUpTo(s: string, k: nat): (n: nat)
    requires k <= |s|
    requires forall i :: k <= i < |s| ==> IsSpace(s[i])
    ensures n <= k
    ensures forall i :: n <= i < |s| ==> IsSpace(s[i])
    ensures n > 0 ==> !IsSpace(s[n - 1])
  {
    if k > 0 && IsSpace(s[k - 1]) then TrailingSpaceUpTo(s, k - 1) else k
  }

  /** Where the trailing whitespace of `s` begins. */
  function TrailingSpace(s: string): (n: nat)
    ensures n <= |s|
    ensures forall i :: n <= i < |s| ==> IsSpace(s[i])
    ensures n > 0 ==> !IsSpace(s[n - 1])
  {
    TrailingSpaceUpTo(s, |s|)
  }

  /** The leading and trailing whitespace are determined by which characters are
      whitespace, so two strings that agree on that have the same cut points. */
  lemma SpaceCutsAgree(s: string, t: string)
    requires |s| == |t| && forall i :: 0 <= i < |s| ==> (IsSpace(s[i]) <==> IsSpace(t[i]))
    ensures LeadingSpace(s) == LeadingSpace(t) && TrailingSpace(s) == TrailingSpace(t)
  {
  }

  /** `t` occurs in `s` as the contiguous block starting at position `i`. */
  predicate OccursAt(s: string, t: string, i: int)
  {
    0 <= i && i + |t| <= |s| && s[i..i + |t|] == t
  }

  /** String.prototype.trim: `s` with whitespace cut from both ends, so that
      only whitespace is cut and what is left neither starts nor ends with it. */
  function Trim(s: string): (r: string)
    ensures exists i :: OccursAt(s, r, i) && IsBlank(s[..i]) && IsBlank(s[i + |r|..])
    ensures |r| > 0 ==> !IsSpace(r[0]) && !IsSpace(r[|r| - 1])
  {
    var a := LeadingSpace(s);
    var b := if a == |s| then a else TrailingSpace(s);
    assert a <= b;
    assert IsBlank(s[..a]) by {
      forall k | 0 <= k < a ensures IsSpace(s[..a][k]) {
        assert s[..a][k] == s[k];
      }
    }
    assert IsBlank(s[b..]) by {
      forall k | 0 <= k < |s| - b ensures IsSpace(s[b..][k]) {
        assert s[b..][k] == s[b + k];
      }
    }
    assert OccursAt(s, s[a..b], a);
    s[a..b]
  }

  /** Trimming leaves nothing exactly when the string is blank. */
  lemma TrimEmptyIffBlank(s: string)
    ensures Trim(s) == "" <==> IsBlank(s)
  {
    if IsBlank(s) {
      assert LeadingSpace(s) == |s|;
    }
  }

  /** Trimming twice is trimming once. */
  lemma TrimIdempotent(s: string)
    ensures Trim(Trim(s)) == Trim(s)
  {
    var r := Trim(s);
    if |r| > 0 {
      assert LeadingSpace(r) == 0;
      assert TrailingSpace(r) == |r|;
      assert r[0..|r|] == r;
    }
  }

  /** ASCII case folding of one character. */
  function LowerChar(c: char): char
  {
    if 'A' <= c <= 'Z' then (c as int + 32) as char else c
  }

  /** String.prototype.toLowerCase restricted to ASCII letters. */
  function Lower(s: string): (r: string)
    ensures |r| == |s|
    ensures forall i :: 0 <= i < |s| ==> r[i] == LowerChar(s[i])
  {
    seq(|s|, i requires 0 <= i < |s| => LowerChar(s[i]))
  }

  /** Lower-casing twice is lower-casing once, and no upper-case ASCII letter survives it. */
  lemma LowerIdempotent(s: string)
    ensures Lower(Lower(s)) == Lower(s)
    ensures forall i :: 0 <= i < |s| ==> !('A' <= Lower(s)[i] <= 'Z')
  {
  }

  /** Case folding touches no whitespace, so lower-casing then trimming (the
      order the admin search uses) equals trimming then lower-casing. */
  lemma LowerThenTrim(s: string)
    ensures Trim(Lower(s)) == Lower(Trim(s))
  {
    var l := Lower(s);
    SpaceCutsAgree(s, l);
    var a := LeadingSpace(s);
    var b := if a == |s| then a else TrailingSpace(s);
    assert Trim(s) == s[a..b];
    assert Trim(l) == l[a..b];
  }

  /** String.prototype.includes: `t` occurs somewhere in `s` as a contiguous
      block; the empty string occurs in every string. */
  function Contains(s: string, t: string): (b: bool)
    ensures b <==> exists i :: OccursAt(s, t, i)
    decreases |s|
  {
    if IsPrefix(t, s) then
      assert OccursAt(s, t, 0);
      true
    else if |s| <= |t| then false
    else
      var b := Contains(s[1..], t);
      assert b ==> exists i :: OccursAt(s, t, i) by {
        if b {
          var i :| OccursAt(s[1..], t, i);
          assert s[i + 1..i + 1 + |t|] == s[1..][i..i + |t|];
          assert OccursAt(s, t, i + 1);
        }
      }
      assert (exists i :: OccursAt(s, t, i)) ==> b by {
        if exists i :: OccursAt(s, t, i) {
          var i :| OccursAt(s, t, i);
          assert i != 0;
          assert s[1..][i - 1..i - 1 + |t|] == s[i..i + |t|];
          assert OccursAt(s[1..], t, i - 1);
        }
      }
      b
  }

  /** `s.split(c)[0]`: the part of `s` before the first `c`, or all of `s`
      when `c` does not occur. */
  function BeforeFirst(s: string, c: char): (r: string)
    ensures IsPrefix(r, s)
    ensures c !in r
    ensures |r| < |s| ==> s[|r|] == c
  {
    if |s| == 0 || s[0] == c then "" else [s[0]] + BeforeFirst(s[1..], c)
  }

  /** The prefix is the whole string exactly when the separator is absent. */
  lemma BeforeFirstWholeIffAbsent(s: string, c: char)
    ensures BeforeFirst(s, c) == s <==> c !in s
  {
  }
}

=== FILE: theme_context.dfy ===
/** The two-valued colour theme: chosen from local storage at start, saved on
    every change, and flipped by the toggle. */
module ThemeContext {
  import opened Basics

  datatype Theme = Light | Dark

  /** The text stored under "theme". */
  function ThemeName(t: Theme): (name: string)
    ensures name == "light" || name == "dark"
  {
    match t
    case Light => "light"
    case Dark => "dark"
  }

  /** The starting theme: a saved "light" or "dark" is taken; anything else,
      or nothing, gives dark. */
  function InitialTheme(saved: Option<string>): (t: Theme)
    ensures saved == Some("light") ==> t == Light
    ensures saved != Some("light") ==> t == Dark
  {
    if saved == Some("light") then Light
    else if saved == Some("dark") then Dark
    else Dark
  }

  /** Whatever is saved is what the next start picks up. */
  lemma SavedThemeRestored(t: Theme)
    ensures InitialTheme(Some(ThemeName(t))) == t
  {
  }

  function Toggle(t: Theme): (r: Theme)
    ensures r != t
    ensures ThemeName(r) != ThemeName(t)
  {
    if t == Light then Dark else Light
  }

  /** Toggling twice changes nothing. */
  lemma ToggleTwice(t: Theme)
    ensures Toggle(Toggle(t)) == t
  {
  }
}

=== FILE: tracking_page.dfy ===
/** The tracking page: which order it shows, and when it opens the login modal
    or sends the visitor home. */
module TrackingPage {
  import opened Basics
  import opened Types
  import opened Seqs

  /** A route parameter counts only when present and non-empty (JavaScript truthiness). */
  predicate Truthy(param: Option<string>)
  {
    param.Some? && param.value != ""
  }

  /** Some order in the list carries this id. */
  predicate HasOrderWithId(orders: seq<Order>, id: string)
  {
    exists i :: 0 <= i < |orders| && orders[i].id == id
  }

  /** The order to show: the first one whose id matches the route parameter,
      falling back to the current order when nothing matches or there is no parameter. */
  function ResolveOrder(orderId: Option<string>, orders: seq<Order>, current: Option<Order>): (r: Option<Order>)
    ensures !Truthy(orderId) ==> r == current
    ensures Truthy(orderId) && !HasOrderWithId(orders, orderId.value) ==> r == current
    ensures Truthy(orderId) && HasOrderWithId(orders, orderId.value) ==>
      exists i :: 0 <= i < |orders| && r == Some(orders[i]) && orders[i].id == orderId.value &&
        forall j :: 0 <= j < i ==> orders[j].id != orderId.value
  {
    if Truthy(orderId) then
      var id := orderId.value;
      var found := FindFirst(orders, (o: Order) => o.id == id);
      if found.Some? then found else current
    else current
  }

  /** The fallback is taken even when the current order has a different id. */
  lemma FallbackIgnoresId(id: string, orders: seq<Order>, current: Order)
    requires id != "" && !HasOrderWithId(orders, id) && current.id != id
    ensures ResolveOrder(Some(id), orders, Some(current)) == Some(current)
  {
  }

  /** What the two effects of one render do. React runs an effect on mount and
      afterwards only in a render where one of its dependencies changed: `user`
      for the login effect, and `order` or `showLoginModal` for the redirect
      (`navigate` is stable). Both read the same render's `showLoginModal`, so
      the redirect does not see a modal opened by the first effect in the same pass. */
  datatype Effects = Effects(showLoginModal: bool, navigateHome: bool)

  function RunEffects(user: Option<User>, order: Option<Order>, showLoginModal: bool,
                      userChanged: bool, redirectDepsChanged: bool): (e: Effects)
    ensures userChanged && user.None? ==> e.showLoginModal
    ensures !(userChanged && user.None?) ==> e.showLoginModal == showLoginModal
    ensures e.navigateHome <==> redirectDepsChanged && order.None? && !showLoginModal
  {
    Effects(if userChanged && user.None? then true else showLoginModal,
            redirectDepsChanged && order.None? && !showLoginModal)
  }

  /** On mount every effect runs with the modal closed: a signed-out visitor
      with no order to show is sent home even though the login modal is being opened. */
  lemma FirstRenderWithoutOrderGoesHome(user: Option<User>)
    requires user.None?
    ensures RunEffects(user, None, false, true, true) == Effects(true, true)
  {
  }

  /** A signed-out visitor who closes the login modal while an order is shown
      keeps it closed and stays: the user did not change, so the login effect
      does not run again, and the redirect finds an order. Without an order the
      same close sends the visitor home. */
  lemma ClosingModalStaysClosed(user: Option<User>, order: Option<Order>)
    requires user.None?
    ensures !RunEffects(user, order, false, false, true).showLoginModal
    ensures RunEffects(user, order, false, false, true).navigateHome <==> order.None?
  {
  }

  /** The page's body. */
  datatype Screen = OrderNotFound | Tracking(order: Order)

  function Body(order: Option<Order>): (s: Screen)
    ensures s.OrderNotFound? <==> order.None?
    ensures s.Tracking? ==> s.order == order.value
  {
    if order.None? then OrderNotFound else Tracking(order.value)
  }
}

=== FILE: types.dfy ===
/** The storefront's records: medicines, cart lines, orders, addresses and users. */
module Types {
  import opened Basics

  /** A catalogue entry. Prices are exact reals; the browser's binary floats are not modelled. */
  datatype Medicine = Medicine(
    id: string,
    name: string,
    description: string,
    price: real,
    imageUrl: string,
    category: string)

  /** A cart line: a medicine together with how many of it are wanted, and nothing more. */
  datatype CartItem = CartItem(medicine: Medicine, quantity: int)
  {
    /** The line is addressed by its medicine's id. */
    function Id(): string { medicine.id }
  }

  /** A delivery address: four free-text fields. */
  datatype Address = Address(street: string, city: string, state: string, zipCode: string)

  /** A placed order. `status` is whatever text the store holds (see DeclaredStatus);
      `createdAt` is a timestamp; `eta` is in minutes; `deliveryProgress` is a percentage. */
  datatype Order = Order(
    id: string,
    userId: string,
    items: seq<CartItem>,
    total: real,
    status: string,
    createdAt: int,
    address: Address,
    eta: int,
    deliveryProgress: int)

  /** A signed-in user; `photoURL` is optional. */
  datatype User = User(id: string, email: string, name: string, photoURL: Option<string>)

  const PendingStatus: string := "pending"
  const InTransitStatus: string := "in-transit"
  const DeliveredStatus: string := "delivered"
  /** The status the order store actually writes when an order is created. */
  const ProcessingStatus: string := "processing"

  /** The three statuses the Order record's type admits. Stored orders are not
      checked against it, and newly created ones fall outside it. */
  predicate DeclaredStatus(status: string)
  {
    status == PendingStatus || status == InTransitStatus || status == DeliveredStatus
  }

  /** The documented range of `deliveryProgress`; nothing enforces it on stored orders. */
  predicate DocumentedProgress(progress: int)
  {
    0 <= progress <= 100
  }

  /** The status written at creation is not one of the declared three. */
  lemma ProcessingIsUndeclared()
    ensures !DeclaredStatus(ProcessingStatus)
  {
  }
}

=== FILE: user_admin_manager.dfy ===
/** The "make admin" form: reject a blank id, otherwise ask the admin service
    (outside the model) and report its answer. */
module UserAdminManager {
  import opened Basics
  import opened Text

  datatype ManagerState = ManagerState(userId: string, isSubmitting: bool)

  datatype ManagerNotice = EnterValidId | AdminGranted | NotGranted | UnexpectedError

  /** The form's new state, the id passed to the service (if it was called), and the toast. */
  datatype Submission = Submission(state: ManagerState, call: Option<string>, notice: ManagerNotice)

  function HandleSubmit(s: ManagerState, reply: Reply<bool>): (r: Submission)
    ensures r.call.None? <==> IsBlank(s.userId)
    ensures r.call.None? ==> r.state == s && r.notice == EnterValidId
    ensures r.call.Some? ==> r.call.value == s.userId && !r.state.isSubmitting
    ensures r.call.Some? ==> (r.state.userId == "" <==> reply == Returned(true))
    ensures r.call.Some? && reply != Returned(true) ==>
      r.state.userId == s.userId && (r.notice == NotGranted || r.notice == UnexpectedError)
    ensures r.notice == AdminGranted <==> r.call.Some? && reply == Returned(true)
  {
    TrimEmptyIffBlank(s.userId);
    if Trim(s.userId) == "" then Submission(s, None, EnterValidId)
    else
      match reply
      case Returned(true) => Submission(ManagerState("", false), Some(s.userId), AdminGranted)
      case Returned(false) => Submission(s.(isSubmitting := false), Some(s.userId), NotGranted)
      case Threw(_) => Submission(s.(isSubmitting := false), Some(s.userId), UnexpectedError)
  }

  /** The id is passed on exactly as typed, surrounding whitespace included,
      even when trimming would change it. */
  lemma IdPassedUntrimmed(s: ManagerState, reply: Reply<bool>)
    requires !IsBlank(s.userId) && Trim(s.userId) != s.userId
    ensures HandleSubmit(s, reply).call == Some(s.userId)
    ensures HandleSubmit(s, reply).call != Some(Trim(s.userId))
  {
  }
}
